=== FILE: README.md ===
# Lemwood Mirror admin logic, modelled in Dafny

This project models three small pieces of the Lemwood Mirror download site.

- **The admin console's controller** (`web/admin/app.js`), without the DOM and without `fetch`:
  - recovery of the session token from the `admin_token` cookie, login and logout;
  - the authenticated request wrapper `apiFetch`, with its headers and its 401 rule;
  - the file browser: the `/`-separated path algebra, the listing rows, download, delete and upload;
  - the configuration editor: launcher rows, the save payload, the save request, and loading a configuration back into the form;
  - two-factor provisioning: the 16-character Base32 secret, the `otpauth://` URI and the QR image URL;
  - `formatSize`.
- **The server's session-token store** (`internal/auth/auth.go`): `GenerateToken`, `ValidateToken` and one pass of the `CleanupTokens` sweep, over a map from token to expiry.
- **The public site's launcher display names** (`web/src/lib/launcher-info.ts`).

The model is functional. The browser's local storage is an `Option<string>`. The network's answer is an input (`Reply`). So are the `confirm` answer, the random draws, the random bytes and the current time. Each handler is a function from these inputs to the new state and its visible effect.

Modules, one per file:

- `Wrappers`: `Option` and `Result`.
- `Text`: JavaScript `trim`, `split` and `join`, plus decimal digits.
- `Uri`: `encodeURIComponent` and the percent-decoding that inverts it.
- `Session`, `FileBrowser`, `SizeFormat`, `ConfigEditor` and `Totp`: the admin console.
- `TokenStore`: the Go token store.
- `LauncherInfo`: the display-name table.

Some behaviour of the code is easy to miss; the model keeps it:

- A cookie `admin_token=` with nothing after the `=` stores an empty token (web/admin/app.js:20-22). That token counts as "no token" wherever the code tests it for truth (lines 29 and 86).
- The upload bypasses `apiFetch` (lines 426-433) and handles a 401 itself: it returns without raising an error (lines 435-439).
- With no token stored, the upload sends the header `Authorization: null` (line 430).
- The 2FA secret is loaded from the server into the form (line 177). Only the password and upstream-token fields are never filled from the server.
- The refresh after a delete or an upload reads the current directory when the answer arrives (lines 379 and 443), not when the request was made.

In two places the code evidently does not do what it means to; both are listed under Findings. There, the handlers (`ConfigEditor.LoadConfig`, `ConfigEditor.AddLauncherItem`, `ConfigEditor.LoadRows`) model the corrected program, and separate members model the code as written.

## Model

| member | source | states |
|---|---|---|
| `Session.RecoverToken` | web/admin/app.js:13-31 | A truthy stored token is kept and the cookie is left alone. Otherwise the first `;`-piece that starts with `admin_token=` after trimming supplies the token: it is stored and the cookie is erased. The stored value is the text after the prefix. With no such piece nothing changes. The admin page opens exactly when a truthy token ends up stored. |
| `Session.FirstTokenCookie` | web/admin/app.js:17-20 | Returns no index exactly when no piece is a token cookie. Otherwise it returns the first token cookie, and no earlier piece is one. |
| `Session.LoginUser` | web/admin/app.js:53 | A typed user name is used as is. A blank one becomes the non-empty default `admin`. |
| `Session.Login` | web/admin/app.js:57-74 | Only a successful login stores a token: the returned one. It also opens the admin page and shows no error. A rejection keeps the stored token and shows the body text, or the fixed message when the body is empty. An unreachable server keeps the token and shows the connection-failure message. |
| `Session.Logout` | web/admin/app.js:78-81 | After logout no token is stored, whatever was stored before. |
| `Session.RequestHeaders` | web/admin/app.js:84-91 | `Authorization` is the raw stored token when a truthy token is stored. Otherwise it is whatever the caller gave. `Content-Type: application/json` is added only for a truthy body when the caller gave no truthy content type. Every other caller header is passed through unchanged, and none is dropped. |
| `Session.ApiFetch` | web/admin/app.js:83-100 | A 401 from any request removes the token, reloads the page and raises a session-expired failure. Any other status is handed back unchanged and leaves the token alone. A request with no response is a network failure. |
| `Session.ExpiredSessionSendsNoToken` | web/admin/app.js:94-97 | After a 401, no later request carries an `Authorization` header unless its caller sets one. |
| `FileBrowser.Child` | web/admin/app.js:341 | The child path is the bare name at the root. Everywhere else it is the directory, a `/` and the name. |
| `FileBrowser.SegmentsOfChild` | web/admin/app.js:331 | The segments of a child path are the directory's segments followed by the entry name. |
| `FileBrowser.ParentOfChild` | web/admin/app.js:331 | Dropping the last segment of `Child(d, n)` gives back `d`, for every name without `/`. |
| `FileBrowser.LastSegmentOfChild` | web/admin/app.js:402 | The last segment of `Child(d, n)` is `n`, for every name without `/`. |
| `FileBrowser.ChildOfParent` | web/admin/app.js:331 | Every non-empty path not starting with `/` is rebuilt by `Child` from its parent and its last segment. |
| `FileBrowser.ParentAndLastSegment` | web/admin/app.js:331 | The parent is everything before the last `/`, or the root when there is none. The last segment (line 402) is everything after it and contains no `/`. The parent, a `/` and the last segment make up the path again. |
| `FileBrowser.ParentExamples` | web/admin/app.js:331 | `a/b` goes up to `a`, and `a` goes up to the root. |
| `FileBrowser.ListingRows` | web/admin/app.js:330-365 | A `..` row to the parent comes first exactly when the path is not the root. Then comes one row per entry, in the server's order. Each entry row has the entry's name, its directory flag and its full child path. It shows `-` for directories and the formatted size for files, and only files offer a download. |
| `FileBrowser.ListingActions` | web/admin/app.js:330-363 | The `..` row goes to the parent and has no delete button. A directory row opens its child path, and a file row downloads it. Every entry row deletes its own child path. |
| `FileBrowser.EnterAndReturn` | web/admin/app.js:334-356 | A directory row navigates to the child path, and that listing's `..` row leads back to the original path. |
| `FileBrowser.DownloadKeepsName` | web/admin/app.js:358-402 | A file row downloads its own path. The file is saved under the entry's name. |
| `FileBrowser.UpFromAB` | web/admin/app.js:330-334 | The `..` row of a listing of `a/b` navigates to `a`. |
| `FileBrowser.FilesUrl` | web/admin/app.js:324 | The request URL is the endpoint followed by the path as one encoded query value. That value holds only unreserved characters and `%` escapes, so no `&`, `#`, `+` or `=` can end it early or be read as a space. Percent-decoding it gives back exactly the path. |
| `FileBrowser.LoadFiles` | web/admin/app.js:317-370 | The current path changes at once. The table is rebuilt from the listing only on success; otherwise it keeps its rows. The request carries the headers `apiFetch` builds from the stored token. Only a 401 ends the session and reloads the page. A failed listing is only logged: no alert and no other visible effect. |
| `FileBrowser.DeleteFile` | web/admin/app.js:372-386 | Without confirmation no request is sent and nothing changes. With confirmation a DELETE for the path is sent. Success refreshes the directory that is current when the answer arrives. A non-401 failure status raises an alert. The request carries the headers `apiFetch` builds from the stored token. Only a confirmed request answered with 401 ends the session and reloads the page. No answer at all, or a 401, is only logged, with no visible effect. |
| `FileBrowser.DownloadFile` | web/admin/app.js:388-410 | The payload is fetched with the token. On success it is saved under the path's last segment. Every failure, a 401 included, ends in an alert. The request carries the headers `apiFetch` builds, and only a 401 reloads the page. |
| `FileBrowser.Upload` | web/admin/app.js:417-452 | With no file chosen nothing happens. Otherwise the target is `Child(currentPath, name)`, sent as a POST whose only header is `Authorization`, with no JSON content type. A 401 removes the token and reloads. Success refreshes the directory that is current when the answer arrives, which can differ from the one the target was built from. Any other status, or no answer at all, raises an alert. The file input is cleared after every attempt. |
| `FileBrowser.UploadAuthorizationHeader` | web/admin/app.js:430 | With a truthy token, the upload sends the same `Authorization` value as `apiFetch`. With nothing stored it sends the text `null`, and with an empty token an empty header; `apiFetch` sends no header in either case. |
| `FileBrowser.UploadScenario` | web/admin/app.js:421-443 | Uploading `report.csv` in `docs/2024` targets `docs/2024/report.csv`. If the operator is still in `docs/2024` when the answer arrives, success refreshes `docs/2024`. |
| `FileBrowser.SessionEndsOn401` | web/admin/app.js:94-96 | The token is removed and the page reloads whichever file operation gets the 401: listing, delete, download or upload. |
| `SizeFormat.UnitIndex` | web/admin/app.js:530 | The unit index of a non-zero size is the `i` with `1024^i <= bytes < 1024^(i+1)`. |
| `SizeFormat.UnitIndexUnique` | web/admin/app.js:530 | No other index satisfies those bounds. |
| `SizeFormat.Hundredths` | web/admin/app.js:531 | The amount is the size in the chosen unit, rounded to the nearest hundredth, with ties going up. |
| `SizeFormat.HundredthsText` | web/admin/app.js:531 | A whole amount prints without a fraction. Otherwise the integer part is followed by `.` and at most two digits, with no trailing zero. |
| `SizeFormat.HundredthsTextParses` | web/admin/app.js:531 | The printed amount, read as a decimal, is exactly the number of hundredths it was printed from. |
| `SizeFormat.ReadBack` | web/admin/app.js:526-532 | For `1 <= bytes < 1024^5`, `formatSize` prints an amount, a space and a unit. The unit's power range holds the size, and the amount, read as a decimal, is the size in that unit rounded to the nearest hundredth, ties going up. |
| `SizeFormat.UnitChoice` | web/admin/app.js:526-531 | For `1 <= bytes < 1024^5` the unit is `B`, `KB`, `MB`, `GB` or `TB`, chosen by the unique index above. The printed amount is at least 1. |
| `SizeFormat.ExactMultiple` | web/admin/app.js:526-531 | `m` whole units, with `1 <= m < 1024`, print as the integer `m` and that unit. |
| `SizeFormat.Examples` | web/admin/app.js:526-531 | 0 prints as `0 B`, 1024 as `1 KB`, 1536 as `1.5 KB` and 1048576 as `1 MB`. |
| `ConfigEditor.RowOf` | web/admin/app.js:197-215 | The intended row holds the launcher's name, URL and selector verbatim. A missing selector shows as empty. |
| `ConfigEditor.RowRoundTrip` | web/admin/app.js:204-268 | Reading a row back gives the launcher that was shown, with a missing selector made empty. |
| `ConfigEditor.AddLauncherItem` | web/admin/app.js:197-219 | Adding appends exactly one row, after all existing rows, which stay as they were. |
| `ConfigEditor.AddButtonAppendsEmptyRow` | web/admin/app.js:197-221 | The "add" button appends one all-empty row. |
| `ConfigEditor.RemoveRow` | web/admin/app.js:217 | Removing a row deletes only that row. The rows before it stay in place, the rows after it move up one, and the multiset of rows loses exactly that row. |
| `ConfigEditor.CollectLaunchers` | web/admin/app.js:263-270 | The saved launchers are the rows in row order, one per row, field by field. |
| `ConfigEditor.LoadRows` | web/admin/app.js:183-188 | Loading empties the rows and then shows one row per server launcher, in the server's order. |
| `ConfigEditor.SaveThenLoad` | web/admin/app.js:263-270 | Rows that are saved and sent back by the server load as the same rows: reading a row for the payload loses nothing. |
| `ConfigEditor.LoadThenCollect` | web/admin/app.js:183-270 | Saving right after a load sends the server's launchers back unchanged, in order, with missing selectors made empty. |
| `ConfigEditor.BuildPayload` | web/admin/app.js:272-298 | The payload carries every scalar form field and the 2FA state unchanged, and the launchers in row order. `admin_password` and `github_token` are present exactly when their fields are non-empty, and then verbatim. |
| `ConfigEditor.RemoveThenSave` | web/admin/app.js:217-270 | With rows X, Y, Z, removing Y and saving sends the launchers of X and Z, in that order. |
| `ConfigEditor.Save` | web/admin/app.js:258-315 | The save posts the payload with exactly the headers `apiFetch` builds: the token when one is truthy, the JSON content type, and nothing else. A 2xx answer leads to a config reload, and anything else to an error. A 401 also ends the session. |
| `ConfigEditor.TwoFactorFrom` | web/admin/app.js:175-180 | After a load, the 2FA box and the setup section follow the server's flag. The secret field shows the server's secret, or nothing. The QR code is redrawn only when 2FA is on and a secret is known. |
| `ConfigEditor.FormFrom` | web/admin/app.js:158-173 | Every form field shows the server's value. A missing download base, proxy, asset proxy or Xget domain shows as empty. A zero retry limit shows as 10 and a zero lock duration as 120. The secret fields are whatever they were given. |
| `ConfigEditor.ShownFormIsDetermined` | web/admin/app.js:158-173 | Two forms that both show the same configuration, and hold the same secret fields, are the same form. |
| `ConfigEditor.LoadIntoEditor` | web/admin/app.js:143-194 | The corrected load makes the form show the server's configuration, field by field as for `FormFrom`. It rebuilds the rows from the launchers, sets the 2FA section as `TwoFactorFrom` states, and blanks both secret fields. |
| `ConfigEditor.LoadIntoEditorAsWritten` | web/admin/app.js:143-194 | The load as written fills every other field in the same way, but leaves both secret fields exactly as they were. |
| `ConfigEditor.SecretsSurviveReloadAsWritten` | web/admin/app.js:291-307 | With the load as written, a password and token typed before a successful save are sent again by the next save. |
| `ConfigEditor.ReloadClearsSecrets` | web/admin/app.js:291-307 | With the corrected load, the save after a reload omits both secrets, which leaves them unchanged on the server. |
| `ConfigEditor.LoadConfig` | web/admin/app.js:143-194 | A 2xx answer fills the editor. Every failure leaves it untouched. A 401 also ends the session. |
| `ConfigEditor.LoadThenSaveKeepsLaunchers` | web/admin/app.js:183-298 | The payload saved right after a load carries the server's launchers, in order. |
| `ConfigEditor.AttributeValueAsWritten` | web/admin/app.js:204-213 | A value written into a quoted `value` attribute comes back cut at its first double quote: a prefix of the value, containing no quote, followed in the value by a quote. A value without a quote comes back whole. |
| `ConfigEditor.AsWrittenAgreesWithoutQuotes` | web/admin/app.js:197-215 | For values without a double quote, the rendering as written gives the intended row. |
| `ConfigEditor.QuoteTruncatesName` | web/admin/app.js:204 | A launcher named `a"b` is read back named `a`. |
| `Totp.Base32Symbol` | web/admin/app.js:239 | Every index below 32 names a Base32 symbol. |
| `Totp.Base32Index` | web/admin/app.js:239 | Every Base32 symbol has an index below 32 that names it. |
| `Totp.AlphabetIsBase32` | web/admin/app.js:239 | The 32-character alphabet lists the Base32 symbols of section 6 of RFC 4648, in order. |
| `Totp.DrawsOf` | web/admin/app.js:240-242 | Every 16-symbol Base32 secret comes from a valid sequence of draws. |
| `Totp.SecretsMatchDraws` | web/admin/app.js:240-242 | Draws and secrets correspond one to one, so uniform draws make every secret equally likely. |
| `Totp.GenerateNewSecret` | web/admin/app.js:238-246 | The secret has exactly 16 characters, all from the Base32 alphabet. Each is the symbol its draw picks. |
| `Totp.OtpauthUri` | web/admin/app.js:251 | The URI begins with `otpauth://totp/LemwoodMirror:admin?secret=`. It is exactly as long as that prefix, the secret and `&issuer=LemwoodMirror` together. |
| `Totp.SecretInUriRoundTrip` | web/admin/app.js:251 | The secret read back out of the URI is the one it was built from. |
| `Totp.QrImageUrl` | web/admin/app.js:248-253 | The image URL starts with the QR service's address. |
| `Totp.QrUrlContainsSecret` | web/admin/app.js:251-253 | A Base32 secret appears verbatim in the image URL, between the encoded URI prefix and the encoded suffix. |
| `Totp.GenerateClicked` | web/admin/app.js:236-246 | The "generate" button always installs the secret spelled by the random draws, `SecretOf(draws)`, and its QR code. The 2FA box and the setup section are unchanged. |
| `Totp.ToggleTwoFactor` | web/admin/app.js:229-234 | The setup section follows the box. Switching 2FA on with an empty secret generates the secret spelled by the random draws, with its QR code. Otherwise the secret and QR code are kept. |
| `TokenStore.HexEncode` | internal/auth/auth.go:25 | A token is two lower-case hex digits per byte. |
| `TokenStore.HexRoundTrip` | internal/auth/auth.go:25 | Hex decoding gives back the bytes, so distinct random bytes give distinct tokens. |
| `TokenStore.HexDigitsTable` | internal/auth/auth.go:25 | The digit function is the lower-case hex alphabet. |
| `TokenStore.GenerateToken` | internal/auth/auth.go:18-32 | A failed random read returns an error and leaves the store unchanged. Otherwise the token is the 64-character lower-case hex text of the 32 bytes. It is registered to expire 24 hours after now, and no other entry changes. |
| `TokenStore.ValidateToken` | internal/auth/auth.go:34-51 | A token is accepted exactly when it is registered and now is not after its expiry, the boundary instant included. Acceptance and unknown tokens leave the store unchanged. An expired token is rejected and removed, and only it. |
| `TokenStore.CleanupSweep` | internal/auth/auth.go:70-76 | One sweep removes exactly the expired tokens, and every other entry keeps its expiry. |
| `TokenStore.RejectionIsFinal` | internal/auth/auth.go:39-47 | After a rejection, the same token is rejected at any later check against the store left behind. |
| `TokenStore.IssuedTokenLifetime` | internal/auth/auth.go:18-50 | A freshly issued token is accepted exactly up to 24 hours after issue. |
| `TokenStore.SweepAgreesWithValidation` | internal/auth/auth.go:43-76 | A token survives the sweep at time t exactly when validating it at t succeeds. Sweeping first does not change that answer. |
| `TokenStore.SweepsCompose` | internal/auth/auth.go:70-76 | Sweeping at a and then at a later b is the same as sweeping once at b. |
| `LauncherInfo.DisplayName` | web/src/lib/launcher-info.ts:26-28 | A key in the table gives its display name. Any other name, matched exactly and case-sensitively, comes back unchanged. A non-empty name never gives an empty one. |
| `LauncherInfo.TableShape` | web/src/lib/launcher-info.ts:8-19 | Every display name is non-empty and none is itself a key. |
| `LauncherInfo.DisplayNameIdempotent` | web/src/lib/launcher-info.ts:9-27 | Looking a name up twice gives the same result as looking it up once. |
| `LauncherInfo.Examples` | web/src/lib/launcher-info.ts:9-27 | `zl` gives `ZalithLauncher` and `MG` gives `MobileGlues`. `mg` falls back to `mg`, and `leaves` gives its display name with the Chinese word for server. |

## Left out

- The DOM is not modelled: rendering, element lookups, event wiring and the messages' wording. `showMsg` and its 5-second clearing timer are left out. Alerts are modelled only as their occurrence.
- `location.reload` is modelled as a flag where a 401 causes it. The reload after logout (web/admin/app.js:80) is left out: `Session.Logout` only removes the token. What happens after a reload is left out, except the start-up recovery.
- The 2FA status probe at start-up (`check2FAStatus`) and the login form's OTP field are left out. Only the visibility of an input depends on them.
- The blacklist manager (`loadBlacklist`, the add form, `removeBlacklist`) is left out. It is not part of this model.
- Tab switching (`showTab`) and `showAdminPage` are reduced to the `showAdmin` flag.
- `Date.toLocaleString` for modification times is left out. The time is carried as opaque text.
- The bodies of responses are inputs: the JSON listing, the server config and the login token. JSON parsing and `JSON.stringify` are not modelled. The save body is the parameter `json`.
- The browser form's own `required` validation on launcher names and URLs is left out.
- The form's number-to-text conversion on load and `parseInt` on save are left out. Numeric fields are integers on both sides.
- The upload's multipart body is left out. Only the target, the headers and the reactions are modelled.
- `encodeURIComponent` throws on unpaired surrogates. Dafny strings cannot hold them, so that case is left out.
- Header names are compared exactly, as a plain object compares them. The `Headers` class's case folding is left out.
- `SizeFormat.Hundredths`: `toFixed(2)` and `parseFloat` are modelled exactly only where the quotient is an exact double, i.e. for sizes below 2^53.
- `SizeFormat.UnitIndex`: the index is the exact base-1024 logarithm. The source computes `Math.log(bytes) / Math.log(1024)` in floating point, which can round up to the next integer for sizes just below a power of 1024. For example 2^50 - 1 then gets index 5, and the source prints `1 undefined` where the model prints `1024 TB`. Such sizes are not modelled.
- `SizeFormat.UnitChoice`: holds for the exact index only, so it does not cover the sizes just below a power of 1024 that the floating-point logarithm moves to the next unit.
- `SizeFormat.ReadBack`: the same restriction to the exact index.
- `FileBrowser.LoadFiles`: models one listing request and its answer. When several listings are in flight, the last answer to arrive fills the table, even when it belongs to an earlier navigation. That interleaving is left out.
- `ConfigEditor.AddLauncherItem`: models the corrected program, with the values shown verbatim. The code as written cuts each value at its first `"` (see Findings and `ConfigEditor.AttributeValueAsWritten`).
- `ConfigEditor.LoadRows`: models the corrected program, built from `ConfigEditor.AddLauncherItem`.
- `ConfigEditor.LoadConfig`: models the corrected program. It fills the editor through `ConfigEditor.LoadIntoEditor`, which blanks the secret fields; the code as written keeps them (see Findings and `ConfigEditor.LoadIntoEditorAsWritten`).
- `ConfigEditor.AttributeValueAsWritten`: the parsing of values interpolated into `innerHTML` is modelled only for text without `&`, carriage return, line feed or NUL. Character references and newline stripping are left out.
- In internal/auth/auth.go, the mutex is left out, and so is the hourly `time.Sleep` loop around the sweep; one pass is modelled. A sweep reads the clock once, whereas the source calls `time.Now()` for each entry.
- `crypto/rand` is left out: the random read is an input. bcrypt (`HashPassword`, `CheckPasswordHash`) and `ValidateTOTP` are foreign libraries and not part of this model. Go's `time.Time` range and monotonic clock are left out, and times are unbounded integers of nanoseconds.
- internal/db/db.go, cmd/mirror/main.go and the vue router are not part of this model. They are SQL, concurrency, network I/O and a library-driven route table.
- The logo field of the launcher table is left out; no entry sets one.

## Findings

| source | as written | input that shows it | evidently intended | confidence | as-written member | corrected member |
|---|---|---|---|---|---|---|
| web/admin/app.js:143-194, 307 | After a successful save, `loadConfig` is called "to clear password fields", but it never touches `admin_password` or `github_token`. | Type password `p`, save with a 2xx answer, then save again: the second payload still carries `admin_password: "p"`. | The reload blanks both secret fields, so a later save leaves the secrets unchanged. | medium, not executed | `ConfigEditor.SecretsSurviveReloadAsWritten` (over `ConfigEditor.LoadIntoEditorAsWritten`) | `ConfigEditor.LoadIntoEditor`, with `ConfigEditor.ReloadClearsSecrets` |
| web/admin/app.js:204-213 | `addLauncherItem` writes launcher values unescaped into `value="…"` attributes of `innerHTML`, so the attribute ends at the first `"`. | A launcher named `a"b` is shown and saved back as `a`. | The row shows each value verbatim, and load-then-save returns the server's launchers. | high, not executed | `ConfigEditor.QuoteTruncatesName` (over `ConfigEditor.AttributeValueAsWritten`) | `ConfigEditor.RowOf`, with `ConfigEditor.RowRoundTrip` and `ConfigEditor.LoadThenCollect` |

=== FILE: config_editor.dfy ===
/** The configuration editor of the admin console (web/admin/app.js): the
    editable launcher rows, the payload built when the form is saved, the
    save request and its reactions, and the loading of a configuration into
    the form.

    Numeric form fields are modelled as integers: the number-to-text
    conversion when loading and `parseInt` when saving are taken to be
    inverse to each other. */
module ConfigEditor {
  import opened Wrappers
  import opened Session
  import opened Totp

  // ---------------------------------------------------------------------
  // Launcher rows

  /** A launcher as the server sends it; `repo_selector` may be missing. */
  datatype LauncherData = LauncherData(name: string, sourceUrl: string, repoSelector: Option<string>)

  /** The three inputs of one launcher row in the editor. */
  datatype LauncherRow = LauncherRow(name: string, url: string, selector: string)

  /** A launcher as the save payload carries it. */
  datatype LauncherConfig = LauncherConfig(name: string, sourceUrl: string, repoSelector: string)

  /** The data of a row added with the "add" button. */
  const EmptyLauncher: LauncherData := LauncherData("", "", Some(""))

  /** The row shown for a launcher: its values as they are, with a missing
      (or empty) selector shown as empty. */
  function RowOf(d: LauncherData): (row: LauncherRow)
    ensures row.name == d.name && row.url == d.sourceUrl
    ensures d.repoSelector.Some? ==> row.selector == d.repoSelector.value
    ensures d.repoSelector.None? ==> row.selector == ""
  {
    LauncherRow(d.name, d.sourceUrl, ValueOr(d.repoSelector, ""))
  }

  /** What saving reads back from a row. */
  function ConfigOf(row: LauncherRow): LauncherConfig
  {
    LauncherConfig(row.name, row.url, row.selector)
  }

  /** The launcher the server sent, with a missing selector made empty. */
  function Normalize(d: LauncherData): LauncherConfig
  {
    LauncherConfig(d.name, d.sourceUrl, ValueOr(d.repoSelector, ""))
  }

  /** A launcher survives being shown in a row and read back. */
  lemma RowRoundTrip(d: LauncherData)
    ensures ConfigOf(RowOf(d)) == Normalize(d)
    ensures d.repoSelector.Some? ==> ConfigOf(RowOf(d)) == LauncherConfig(d.name, d.sourceUrl, d.repoSelector.value)
  {
  }

  /** `addLauncherItem(data)`: exactly one row is appended, after all the
      existing ones, which are left as they were. */
  function AddLauncherItem(rows: seq<LauncherRow>, d: LauncherData): (r: seq<LauncherRow>)
    ensures |r| == |rows| + 1
    ensures r[..|rows|] == rows
    ensures r[|rows|] == RowOf(d)
  {
    rows + [RowOf(d)]
  }

  /** The "add launcher" button appends an all-empty row. */
  lemma AddButtonAppendsEmptyRow(rows: seq<LauncherRow>)
    ensures var r := AddLauncherItem(rows, EmptyLauncher);
            |r| == |rows| + 1 && r[|rows|] == LauncherRow("", "", "")
  {
  }

  /** A row's remove button: that row disappears, the others keep their
      relative order, and nothing else changes. */
  function RemoveRow(rows: seq<LauncherRow>, i: nat): (r: seq<LauncherRow>)
    requires i < |rows|
    ensures |r| == |rows| - 1
    ensures forall j :: 0 <= j < i ==> r[j] == rows[j]
    ensures forall j :: i <= j < |r| ==> r[j] == rows[j + 1]
    ensures multiset(r) + multiset{rows[i]} == multiset(rows)
  {
    assert rows == rows[..i] + [rows[i]] + rows[i + 1..];
    rows[..i] + rows[i + 1..]
  }

  /** The launchers of the save payload: one per row, in row order, read
      field by field (the rows are visited in document order and each is
      pushed onto the list). */
  function CollectLaunchers(rows: seq<LauncherRow>): (ls: seq<LauncherConfig>)
    ensures |ls| == |rows|
    ensures forall i :: 0 <= i < |rows| ==>
              ls[i].name == rows[i].name && ls[i].sourceUrl == rows[i].url
              && ls[i].repoSelector == rows[i].selector
  {
    if |rows| == 0 then []
    else CollectLaunchers(rows[..|rows| - 1]) + [ConfigOf(rows[|rows| - 1])]
  }

  /** The rows `loadConfig` builds: the container is emptied and one row is
      added per launcher, in the server's order. */
  function LoadRows(ls: seq<LauncherData>): (rows: seq<LauncherRow>)
    ensures |rows| == |ls|
    ensures forall i :: 0 <= i < |ls| ==> rows[i] == RowOf(ls[i])
  {
    if |ls| == 0 then []
    else AddLauncherItem(LoadRows(ls[..|ls| - 1]), ls[|ls| - 1])
  }

  /** Saving right after loading sends back the server's launchers, in
      order, with missing selectors made empty. */
  lemma {:induction false} LoadThenCollect(ls: seq<LauncherData>)
    ensures CollectLaunchers(LoadRows(ls)) == seq(|ls|, i requires 0 <= i < |ls| => Normalize(ls[i]))
  {
    var rows := LoadRows(ls);
    var cs := CollectLaunchers(rows);
    forall i | 0 <= i < |ls|
      ensures cs[i] == Normalize(ls[i])
    {
      RowRoundTrip(ls[i]);
    }
  }

  /** A saved launcher as the server later sends it back. */
  function Echo(l: LauncherConfig): LauncherData
  {
    LauncherData(l.name, l.sourceUrl, Some(l.repoSelector))
  }

  /** Rows that are saved and sent back by the server load as the same
      rows: reading a row for the payload loses nothing. */
  lemma {:induction false} SaveThenLoad(rows: seq<LauncherRow>)
    ensures var saved := CollectLaunchers(rows);
            LoadRows(seq(|saved|, i requires 0 <= i < |saved| => Echo(saved[i]))) == rows
  {
    var saved := CollectLaunchers(rows);
    var back := LoadRows(seq(|saved|, i requires 0 <= i < |saved| => Echo(saved[i])));
    forall i | 0 <= i < |rows|
      ensures back[i] == rows[i]
    {
      assert back[i] == RowOf(Echo(saved[i]));
    }
  }

  // ---------------------------------------------------------------------
  // The form and the save payload

  /** The scalar fields of the config form (the 2FA fields live in the
      two-factor part of the editor). */
  datatype ConfigForm = ConfigForm(
    serverPort: int, checkCron: string, storagePath: string, downloadUrlBase: string,
    adminUser: string, adminEnabled: bool, proxyUrl: string, assetProxyUrl: string,
    concurrentDownloads: int, downloadTimeoutMinutes: int, xgetEnabled: bool, xgetDomain: string,
    adminMaxRetries: int, adminLockDuration: int,
    adminPassword: string, githubToken: string)

  /** The editor: form fields, launcher rows and the two-factor section. */
  datatype Editor = Editor(form: ConfigForm, rows: seq<LauncherRow>, twoFactor: TwoFactorForm)

  /** The body of `POST /api/admin/config`. The secrets are optional: absent
      means "leave unchanged". */
  datatype ConfigPayload = ConfigPayload(
    serverPort: int, checkCron: string, storagePath: string, downloadUrlBase: string,
    adminUser: string, adminEnabled: bool, proxyUrl: string, assetProxyUrl: string,
    concurrentDownloads: int, downloadTimeoutMinutes: int, xgetEnabled: bool, xgetDomain: string,
    adminMaxRetries: int, adminLockDuration: int, twoFactorEnabled: bool, twoFactorSecret: string,
    launchers: seq<LauncherConfig>, adminPassword: Option<string>, githubToken: Option<string>)

  /** The payload carries every scalar field of the form unchanged. */
  predicate CarriesScalars(e: Editor, p: ConfigPayload) {
    var f := e.form;
    && p.serverPort == f.serverPort && p.checkCron == f.checkCron && p.storagePath == f.storagePath
    && p.downloadUrlBase == f.downloadUrlBase && p.adminUser == f.adminUser
    && p.adminEnabled == f.adminEnabled && p.proxyUrl == f.proxyUrl && p.assetProxyUrl == f.assetProxyUrl
    && p.concurrentDownloads == f.concurrentDownloads && p.downloadTimeoutMinutes == f.downloadTimeoutMinutes
    && p.xgetEnabled == f.xgetEnabled && p.xgetDomain == f.xgetDomain
    && p.adminMaxRetries == f.adminMaxRetries && p.adminLockDuration == f.adminLockDuration
    && p.twoFactorEnabled == e.twoFactor.enabled && p.twoFactorSecret == e.twoFactor.secret
  }

  /** The payload of a save: the form's scalars, the launchers read from the
      rows in order, and each secret only when its field is not blank, then
      verbatim. */
  function BuildPayload(e: Editor): (p: ConfigPayload)
    ensures CarriesScalars(e, p)
    ensures p.adminPassword.Some? <==> e.form.adminPassword != ""
    ensures p.adminPassword.Some? ==> p.adminPassword.value == e.form.adminPassword
    ensures p.githubToken.Some? <==> e.form.githubToken != ""
    ensures p.githubToken.Some? ==> p.githubToken.value == e.form.githubToken
    ensures |p.launchers| == |e.rows|
    ensures forall i :: 0 <= i < |e.rows| ==> p.launchers[i] == ConfigOf(e.rows[i])
  {
    var f := e.form;
    ConfigPayload(
      f.serverPort, f.checkCron, f.storagePath, f.downloadUrlBase,
      f.adminUser, f.adminEnabled, f.proxyUrl, f.assetProxyUrl,
      f.concurrentDownloads, f.downloadTimeoutMinutes, f.xgetEnabled, f.xgetDomain,
      f.adminMaxRetries, f.adminLockDuration, e.twoFactor.enabled, e.twoFactor.secret,
      CollectLaunchers(e.rows),
      if f.adminPassword != "" then Some(f.adminPassword) else None,
      if f.githubToken != "" then Some(f.githubToken) else None)
  }

  /** With rows X, Y, Z, removing Y and saving sends
      the launchers of X and Z, in that order. */
  lemma RemoveThenSave(e: Editor, x: LauncherRow, y: LauncherRow, z: LauncherRow)
    requires e.rows == [x, y, z]
    ensures BuildPayload(e.(rows := RemoveRow(e.rows, 1))).launchers == [ConfigOf(x), ConfigOf(z)]
  {
  }

  /** What a save leads to. */
  datatype SaveEffect = SavedAndReload | SaveFailed

  datatype SaveOutcome = SaveOutcome(payload: ConfigPayload, headers: Headers, stored: Option<string>,
                                     reload: bool, effect: SaveEffect)

  /** Submitting the config form: the payload is posted through `apiFetch`
      (`json` stands for its serialized text); success shows a message and
      reloads the configuration, any failure shows an error and leaves the
      editor as it is; a 401 also ends the session. */
  function Save(e: Editor, stored: Option<string>, json: string, reply: Reply): (o: SaveOutcome)
    ensures o.payload == BuildPayload(e)
    ensures HasToken(stored) ==> Authorization in o.headers && o.headers[Authorization] == stored.value
    ensures json != "" ==> ContentType in o.headers && o.headers[ContentType] == Json
    ensures o.headers == RequestHeaders(stored, map[], Some(json))
    ensures o.effect == SavedAndReload <==> reply.Status? && IsOk(reply.code)
    ensures o.stored == (if reply == Status(401) then None else stored)
    ensures o.reload <==> reply == Status(401)
  {
    var c := ApiFetch(stored, map[], Some(json), reply);
    var effect := if c.fetched.Response? && IsOk(c.fetched.code) then SavedAndReload else SaveFailed;
    SaveOutcome(BuildPayload(e), c.headers, c.stored, c.reload, effect)
  }

  // ---------------------------------------------------------------------
  // Loading a configuration into the editor

  /** `GET /api/admin/config`. The server never sends the secrets. */
  datatype ServerConfig = ServerConfig(
    serverPort: int, checkCron: string, storagePath: string, downloadUrlBase: Option<string>,
    adminUser: string, adminEnabled: bool, proxyUrl: Option<string>, assetProxyUrl: Option<string>,
    concurrentDownloads: int, downloadTimeoutMinutes: int, xgetEnabled: bool, xgetDomain: Option<string>,
    adminMaxRetries: int, adminLockDuration: int, twoFactorEnabled: bool, twoFactorSecret: Option<string>,
    launchers: Option<seq<LauncherData>>)

  /** `value || fallback` for a number: zero counts as missing. */
  function OrDefault(n: int, fallback: int): (r: int)
    ensures n != 0 ==> r == n
    ensures n == 0 ==> r == fallback
  {
    if n != 0 then n else fallback
  }

  /** The form shows the configuration the server sent: every field as
      sent, a missing text as empty, and a zero retry limit or lock duration
      as its default (10 retries, 120 seconds). */
  predicate ShowsConfig(f: ConfigForm, c: ServerConfig) {
    && f.serverPort == c.serverPort
    && f.checkCron == c.checkCron
    && f.storagePath == c.storagePath
    && (c.downloadUrlBase.Some? ==> f.downloadUrlBase == c.downloadUrlBase.value)
    && (c.downloadUrlBase.None? ==> f.downloadUrlBase == "")
    && f.adminUser == c.adminUser
    && f.adminEnabled == c.adminEnabled
    && (c.proxyUrl.Some? ==> f.proxyUrl == c.proxyUrl.value)
    && (c.proxyUrl.None? ==> f.proxyUrl == "")
    && (c.assetProxyUrl.Some? ==> f.assetProxyUrl == c.assetProxyUrl.value)
    && (c.assetProxyUrl.None? ==> f.assetProxyUrl == "")
    && f.concurrentDownloads == c.concurrentDownloads
    && f.downloadTimeoutMinutes == c.downloadTimeoutMinutes
    && f.xgetEnabled == c.xgetEnabled
    && (c.xgetDomain.Some? ==> f.xgetDomain == c.xgetDomain.value)
    && (c.xgetDomain.None? ==> f.xgetDomain == "")
    && (c.adminMaxRetries != 0 ==> f.adminMaxRetries == c.adminMaxRetries)
    && (c.adminMaxRetries == 0 ==> f.adminMaxRetries == 10)
    && (c.adminLockDuration != 0 ==> f.adminLockDuration == c.adminLockDuration)
    && (c.adminLockDuration == 0 ==> f.adminLockDuration == 120)
  }

  /** The form as `loadConfig` fills it in, keeping the given secret
      fields. */
  function FormFrom(c: ServerConfig, adminPassword: string, githubToken: string): (f: ConfigForm)
    ensures ShowsConfig(f, c)
    ensures f.adminPassword == adminPassword && f.githubToken == githubToken
  {
    ConfigForm(
      c.serverPort, c.checkCron, c.storagePath, ValueOr(c.downloadUrlBase, ""),
      c.adminUser, c.adminEnabled, ValueOr(c.proxyUrl, ""), ValueOr(c.assetProxyUrl, ""),
      c.concurrentDownloads, c.downloadTimeoutMinutes, c.xgetEnabled, ValueOr(c.xgetDomain, ""),
      OrDefault(c.adminMaxRetries, 10), OrDefault(c.adminLockDuration, 120),
      adminPassword, githubToken)
  }

  /** The two-factor section after a load: the box and section follow the
      server, the secret field shows the server's secret (or nothing), and
      the QR code is redrawn only when 2FA is on and a secret is known. */
  function TwoFactorFrom(c: ServerConfig, previous: TwoFactorForm): (t: TwoFactorForm)
    ensures t.enabled == c.twoFactorEnabled && t.setupVisible == c.twoFactorEnabled
    ensures t.secret == ValueOr(c.twoFactorSecret, "")
    ensures c.twoFactorEnabled && t.secret != "" ==> t.qrUrl == Some(QrImageUrl(t.secret))
    ensures !(c.twoFactorEnabled && t.secret != "") ==> t.qrUrl == previous.qrUrl
  {
    var secret := ValueOr(c.twoFactorSecret, "");
    TwoFactorForm(c.twoFactorEnabled, secret, c.twoFactorEnabled,
                  if c.twoFactorEnabled && secret != "" then Some(QrImageUrl(secret)) else previous.qrUrl)
  }

  /** Loading a configuration into the editor, with the secret fields
      blanked as the reload after a save intends. The rows are rebuilt from
      the server's launchers (none when the list is missing). */
  function LoadIntoEditor(e: Editor, c: ServerConfig): (r: Editor)
    ensures ShowsConfig(r.form, c)
    ensures r.form.adminPassword == "" && r.form.githubToken == ""
    ensures r.rows == LoadRows(ValueOr(c.launchers, []))
    ensures r.twoFactor == TwoFactorFrom(c, e.twoFactor)
  {
    Editor(FormFrom(c, "", ""), LoadRows(ValueOr(c.launchers, [])), TwoFactorFrom(c, e.twoFactor))
  }

  /** The same load as the source writes it: the secret fields are never
      touched, so whatever the operator typed stays in them. */
  function LoadIntoEditorAsWritten(e: Editor, c: ServerConfig): (r: Editor)
    ensures ShowsConfig(r.form, c)
    ensures r.form.adminPassword == e.form.adminPassword && r.form.githubToken == e.form.githubToken
    ensures r.rows == LoadRows(ValueOr(c.launchers, []))
    ensures r.twoFactor == TwoFactorFrom(c, e.twoFactor)
  {
    Editor(FormFrom(c, e.form.adminPassword, e.form.githubToken), LoadRows(ValueOr(c.launchers, [])),
           TwoFactorFrom(c, e.twoFactor))
  }

  /** A configuration determines the form that shows it, up to the two
      secret fields the server never sends. */
  lemma ShownFormIsDetermined(f: ConfigForm, g: ConfigForm, c: ServerConfig)
    requires ShowsConfig(f, c) && ShowsConfig(g, c)
    requires f.adminPassword == g.adminPassword && f.githubToken == g.githubToken
    ensures f == g
  {
  }

  /** As written, a password typed before a successful save is still sent
      by the next save, after the reload that was meant to clear it. */
  lemma SecretsSurviveReloadAsWritten(e: Editor, stored: Option<string>, json: string, c: ServerConfig)
    requires e.form.adminPassword != "" && e.form.githubToken != ""
    ensures Save(e, stored, json, Status(200)).effect == SavedAndReload
    ensures var next := BuildPayload(LoadIntoEditorAsWritten(e, c));
            next.adminPassword == Some(e.form.adminPassword) && next.githubToken == Some(e.form.githubToken)
  {
  }

  /** With the intended reload, the save after a successful save omits both
      secrets, i.e. leaves them unchanged on the server. */
  lemma ReloadClearsSecrets(e: Editor, c: ServerConfig)
    ensures var next := BuildPayload(LoadIntoEditor(e, c));
            next.adminPassword.None? && next.githubToken.None?
  {
  }

  /** `loadConfig`: a successful response fills the editor; any failure
      shows an error and leaves the editor unchanged. */
  function LoadConfig(e: Editor, stored: Option<string>, reply: Reply, c: ServerConfig): (r: (Editor, Option<string>, bool))
    ensures reply.Status? && IsOk(reply.code) ==> r.0 == LoadIntoEditor(e, c)
    ensures !(reply.Status? && IsOk(reply.code)) ==> r.0 == e
    ensures r.1 == (if reply == Status(401) then None else stored)
    ensures r.2 <==> reply == Status(401)
  {
    var call := ApiFetch(stored, map[], None, reply);
    var editor := if call.fetched.Response? && IsOk(call.fetched.code) then LoadIntoEditor(e, c) else e;
    (editor, call.stored, call.reload)
  }

  /** Loading and saving without edits sends back the server's launchers. */
  lemma LoadThenSaveKeepsLaunchers(e: Editor, c: ServerConfig, ls: seq<LauncherData>)
    requires c.launchers == Some(ls)
    ensures BuildPayload(LoadIntoEditor(e, c)).launchers
            == seq(|ls|, i requires 0 <= i < |ls| => Normalize(ls[i]))
  {
    LoadThenCollect(ls);
  }

  // ---------------------------------------------------------------------
  // Rendering row values into HTML attributes

  /** Characters the HTML parser and the text input treat specially inside a
      quoted attribute value besides the quote: character references,
      newlines (stripped from a text input's value) and NUL (replaced). */
  predicate PlainAttributeText(s: string) {
    forall k :: 0 <= k < |s| ==> s[k] != '&' && s[k] != '\r' && s[k] != '\n' && s[k] != '\U{0}'
  }

  /** The value an input ends up with when the source writes
      `value="${text}"` into `innerHTML`: the parser ends the attribute at
      the first double quote. */
  function AttributeValueAsWritten(s: string): (v: string)
    requires PlainAttributeText(s)
    ensures v <= s
    ensures '"' !in v
    ensures '"' !in s ==> v == s
    ensures '"' in s ==> |v| < |s| && s[|v|] == '"'
  {
    if |s| == 0 || s[0] == '"' then "" else [s[0]] + AttributeValueAsWritten(s[1..])
  }

  /** The row `addLauncherItem` actually builds from launcher data. */
  function RowOfAsWritten(d: LauncherData): LauncherRow
    requires PlainAttributeText(d.name) && PlainAttributeText(d.sourceUrl)
    requires PlainAttributeText(ValueOr(d.repoSelector, ""))
  {
    LauncherRow(AttributeValueAsWritten(d.name), AttributeValueAsWritten(d.sourceUrl),
                AttributeValueAsWritten(ValueOr(d.repoSelector, "")))
  }

  /** For values without a double quote, the written rendering agrees with
      the intended row. */
  lemma AsWrittenAgreesWithoutQuotes(d: LauncherData)
    requires PlainAttributeText(d.name) && PlainAttributeText(d.sourceUrl)
    requires PlainAttributeText(ValueOr(d.repoSelector, ""))
    requires '"' !in d.name && '"' !in d.sourceUrl && '"' !in ValueOr(d.repoSelector, "")
    ensures RowOfAsWritten(d) == RowOf(d)
  {
  }

  /** A launcher named `a"b` comes back from load-then-save named `a`. */
  lemma QuoteTruncatesName()
    ensures var d := LauncherData("a\"b", "u", None);
            ConfigOf(RowOfAsWritten(d)).name == "a" && Normalize(d).name == "a\"b"
  {
    assert AttributeValueAsWritten("a\"b") == "a";
    assert AttributeValueAsWritten("u") == "u";
  }
}

=== FILE: file_browser.dfy ===
/** The admin console's file browser (web/admin/app.js): the `/`-separated
    path algebra, the rows of a directory listing and the actions behind
    them, and the download, delete and upload requests with their reactions
    to the server's answer. The root directory is the empty path. */
module FileBrowser {
  import opened Wrappers
  import opened Text
  import opened Uri
  import opened Session
  import opened SizeFormat

  // ---------------------------------------------------------------------
  // Path algebra

  /** The path of entry `name` inside directory `dir`. */
  function Child(dir: string, name: string): (p: string)
    ensures dir == "" ==> p == name
    ensures dir != "" ==> p == dir + "/" + name
  {
    if dir == "" then name else dir + "/" + name
  }

  /** `path.split('/').slice(0, -1).join('/')`: the path without its last
      segment. */
  function Parent(path: string): string
  {
    var segments := Split(path, '/');
    Join(segments[..|segments| - 1], '/')
  }

  /** `path.split('/').pop()`: the last segment, used as the saved file's
      name. */
  function LastSegment(path: string): string
  {
    var segments := Split(path, '/');
    segments[|segments| - 1]
  }

  /** A path splits into the segments of its directory plus the entry
      name. */
  lemma SegmentsOfChild(dir: string, name: string)
    requires '/' !in name
    ensures Split(Child(dir, name), '/') == (if dir == "" then [] else Split(dir, '/')) + [name]
  {
    if dir != "" {
      SplitSnoc(dir, name, '/');
    }
  }

  /** Going up from a child returns to its directory. */
  lemma ParentOfChild(dir: string, name: string)
    requires '/' !in name
    ensures Parent(Child(dir, name)) == dir
  {
    SegmentsOfChild(dir, name);
    if dir != "" {
      var segs := Split(dir, '/');
      assert (segs + [name])[..|segs|] == segs;
      JoinSplit(dir, '/');
    }
  }

  /** The last segment of a child is its entry name. */
  lemma LastSegmentOfChild(dir: string, name: string)
    requires '/' !in name
    ensures LastSegment(Child(dir, name)) == name
  {
    SegmentsOfChild(dir, name);
  }

  /** A non-empty path not starting with `/` is the child of its parent,
      named by its last segment: the two functions split such a path
      exactly. */
  lemma ChildOfParent(path: string)
    requires path != "" && path[0] != '/'
    ensures Child(Parent(path), LastSegment(path)) == path
  {
    var segs := Split(path, '/');
    JoinSplit(path, '/');
    if '/' !in path {
      assert segs == [path];
    } else {
      var i := IndexOf(path, '/');
      assert i != 0;
      assert segs[0] == path[..i];
      var init := segs[..|segs| - 1];
      assert segs == init + [segs[|segs| - 1]];
      JoinSnoc(init, segs[|segs| - 1], '/');
      assert |Join(init, '/')| >= |init[0]| by {
        if |init| > 1 {
          assert Join(init, '/') == init[0] + ['/'] + Join(init[1..], '/');
        }
      }
    }
  }

  /** The parent is everything before the last `/` (the root when there is
      none), and the last segment is everything after it. */
  lemma ParentAndLastSegment(path: string)
    ensures '/' !in LastSegment(path)
    ensures '/' !in path ==> Parent(path) == "" && LastSegment(path) == path
    ensures '/' in path ==> Parent(path) + "/" + LastSegment(path) == path
  {
    var segs := Split(path, '/');
    if '/' in path {
      var i := IndexOf(path, '/');
      assert segs == [path[..i]] + Split(path[i + 1..], '/');
      var init := segs[..|segs| - 1];
      assert init + [segs[|segs| - 1]] == segs;
      JoinSnoc(init, segs[|segs| - 1], '/');
      JoinSplit(path, '/');
    }
  }

  /** `a/b` goes up to `a`, and `a` goes up to the root. */
  lemma ParentExamples()
    ensures Parent("a/b") == "a"
    ensures Parent("a") == ""
  {
    ParentOfChild("a", "b");
    ParentOfChild("", "a");
  }

  // ---------------------------------------------------------------------
  // Directory listing

  /** One entry of `GET /api/admin/files?path=<p>`. */
  datatype FileEntry = FileEntry(name: string, isDir: bool, size: nat, modTime: string)

  /** A row of the file table: the leading ".." row, or an entry with its
      shown size, its full path and whether it offers a download. */
  datatype Row =
    | UpRow(target: string)
    | EntryRow(name: string, isDir: bool, sizeText: string, path: string, canDownload: bool)

  /** What clicking a row (or its buttons) does. */
  datatype Action = Navigate(path: string) | Download(path: string) | Delete(path: string)

  /** The rows rendered for a listing of `path`: a ".." row leading to the
      parent exactly when `path` is not the root, then one row per entry in
      the server's order. Directories show `-` as size and offer no
      download. */
  function ListingRows(path: string, files: seq<FileEntry>): (rows: seq<Row>)
    ensures |rows| == |files| + (if path != "" then 1 else 0)
    ensures (|rows| > 0 && rows[0].UpRow?) <==> path != ""
    ensures path != "" ==> rows[0] == UpRow(Parent(path))
    ensures forall i :: 0 <= i < |files| ==>
              var row := rows[i + |rows| - |files|];
              && row.EntryRow?
              && row.name == files[i].name
              && row.path == Child(path, files[i].name)
              && row.isDir == files[i].isDir
              && (row.canDownload <==> !files[i].isDir)
              && row.sizeText == (if files[i].isDir then "-" else FormatSize(files[i].size))
  {
    var up := if path != "" then [UpRow(Parent(path))] else [];
    up + seq(|files|, i requires 0 <= i < |files| =>
      var f := files[i];
      EntryRow(f.name, f.isDir, if f.isDir then "-" else FormatSize(f.size), Child(path, f.name), !f.isDir))
  }

  /** The primary action of a row: ".." and directory names navigate, file
      rows download. */
  function PrimaryAction(row: Row): Action
  {
    match row
    case UpRow(t) => Navigate(t)
    case EntryRow(_, isDir, _, p, _) => if isDir then Navigate(p) else Download(p)
  }

  /** Every entry row also offers deletion of its path. */
  function DeleteAction(row: Row): Option<Action>
  {
    match row
    case UpRow(_) => None
    case EntryRow(_, _, _, p, _) => Some(Delete(p))
  }

  /** What each row does: the ".." row goes to the parent and cannot be
      deleted; a directory row opens the child path, a file row downloads
      it, and every entry row deletes its own child path. */
  lemma ListingActions(path: string, files: seq<FileEntry>, i: nat)
    requires i < |files|
    ensures var rows := ListingRows(path, files);
            var row := rows[i + |rows| - |files|];
            var child := Child(path, files[i].name);
            && PrimaryAction(row) == (if files[i].isDir then Navigate(child) else Download(child))
            && DeleteAction(row) == Some(Delete(child))
    ensures path != "" ==>
              && PrimaryAction(ListingRows(path, files)[0]) == Navigate(Parent(path))
              && DeleteAction(ListingRows(path, files)[0]).None?
  {
  }

  /** Entering a directory from a listing and then taking its ".." row
      returns to the listing's own path. */
  lemma EnterAndReturn(path: string, files: seq<FileEntry>, i: nat)
    requires i < |files| && files[i].isDir
    requires files[i].name != "" && '/' !in files[i].name
    ensures var rows := ListingRows(path, files);
            && PrimaryAction(rows[i + |rows| - |files|]) == Navigate(Child(path, files[i].name))
            && ListingRows(Child(path, files[i].name), [])[0] == UpRow(path)
  {
    ParentOfChild(path, files[i].name);
    var c := Child(path, files[i].name);
    assert c != "" by {
      if path != "" {
        assert |c| > |path|;
      }
    }
  }

  /** A file row downloads its own path, saved under the file's name. */
  lemma DownloadKeepsName(path: string, files: seq<FileEntry>, i: nat)
    requires i < |files| && '/' !in files[i].name && !files[i].isDir
    ensures var rows := ListingRows(path, files);
            var action := PrimaryAction(rows[i + |rows| - |files|]);
            action == Download(Child(path, files[i].name)) && LastSegment(action.path) == files[i].name
  {
    LastSegmentOfChild(path, files[i].name);
  }

  /** The ".." row of a listing of `a/b` navigates to `a`. */
  lemma UpFromAB(files: seq<FileEntry>)
    ensures PrimaryAction(ListingRows("a/b", files)[0]) == Navigate("a")
  {
    ParentExamples();
  }

  // ---------------------------------------------------------------------
  // Requests

  const FilesEndpoint: string := "/api/admin/files?path="
  const DownloadEndpoint: string := "/api/admin/files/download?path="

  /** The URL of a file-store request for `path`: the endpoint, then the
      path as one query value that contains no `&`, `#`, `+` or `=` and so
      cannot be cut short or read with a space; percent-decoding that value
      gives back exactly `path`. */
  function FilesUrl(endpoint: string, path: string): (url: string)
    ensures endpoint <= url
    ensures forall k :: |endpoint| <= k < |url| ==> IsEncodedChar(url[k])
    ensures '&' !in url[|endpoint|..] && '#' !in url[|endpoint|..]
    ensures '+' !in url[|endpoint|..] && '=' !in url[|endpoint|..]
    ensures Decode(url[|endpoint|..]) == Some(path)
  {
    var value := EncodeUriComponent(path);
    DecodeEncode(path);
    EncodedHasNoDelimiters(value);
    assert (endpoint + value)[|endpoint|..] == value;
    endpoint + value
  }

  datatype Request = Request(verb: string, url: string, headers: Headers)

  /** What the console does once a request is answered. */
  datatype Effect =
    | NoEffect                 // nothing visible (errors only logged)
    | Refresh(path: string)    // reload the listing of `path`
    | AlertFailure             // a blocking failure alert
    | SaveAs(name: string)     // hand the downloaded payload to the browser under `name`

  /** The request sent (if any), the token left in storage, whether the page
      reloads, the visible effect, and whether the upload input is cleared. */
  datatype Outcome = Outcome(request: Option<Request>, stored: Option<string>, reload: bool,
                             effect: Effect, clearInput: bool)

  /** The file browser's state: the current directory and the shown rows. */
  datatype Browser = Browser(currentPath: string, rows: seq<Row>)

  /** `loadFiles(path)`: the current path becomes `path` at once; the table
      is rebuilt only when the listing request succeeds, and otherwise keeps
      its previous rows. */
  function LoadFiles(b: Browser, stored: Option<string>, path: string, reply: Reply,
                     listing: seq<FileEntry>): (r: (Browser, Outcome))
    ensures r.0.currentPath == path
    ensures r.0.rows == (if reply.Status? && IsOk(reply.code) then ListingRows(path, listing) else b.rows)
    ensures r.1.stored == (if reply == Status(401) then None else stored)
    ensures r.1.reload <==> reply == Status(401)
    ensures r.1.request.Some? && r.1.request.value.url == FilesUrl(FilesEndpoint, path)
    ensures r.1.request.Some? && r.1.request.value.headers == RequestHeaders(stored, map[], None)
    ensures r.1.effect == NoEffect && !r.1.clearInput
  {
    var c := ApiFetch(stored, map[], None, reply);
    var rows := if c.fetched.Response? && IsOk(c.fetched.code) then ListingRows(path, listing) else b.rows;
    (Browser(path, rows),
     Outcome(Some(Request("GET", FilesUrl(FilesEndpoint, path), c.headers)), c.stored, c.reload, NoEffect, false))
  }

  /** `deleteFile(path)`: nothing at all unless the operator confirms; then
      a DELETE whose success refreshes the directory current when the answer
      arrives (`currentPath`, read after the request) and whose failure
      status raises an alert. */
  function DeleteFile(currentPath: string, stored: Option<string>, path: string,
                      confirmed: bool, reply: Reply): (o: Outcome)
    ensures !confirmed ==> o == Outcome(None, stored, false, NoEffect, false)
    ensures confirmed ==> o.request.Some? && o.request.value.verb == "DELETE"
                          && o.request.value.url == FilesUrl(FilesEndpoint, path)
    ensures o.effect.Refresh? <==> confirmed && reply.Status? && IsOk(reply.code)
    ensures o.effect.Refresh? ==> o.effect.path == currentPath
    ensures o.effect == AlertFailure <==> confirmed && reply.Status? && !IsOk(reply.code) && reply.code != 401
    ensures o.stored == (if confirmed && reply == Status(401) then None else stored)
    ensures o.reload <==> confirmed && reply == Status(401)
    ensures confirmed && (reply == NoResponse || reply == Status(401)) ==> o.effect == NoEffect
    ensures !o.clearInput
    ensures confirmed ==> o.request.Some? && o.request.value.headers == RequestHeaders(stored, map[], None)
  {
    if !confirmed then Outcome(None, stored, false, NoEffect, false)
    else
      var c := ApiFetch(stored, map[], None, reply);
      var effect := match c.fetched
        case Response(code) => if IsOk(code) then Refresh(currentPath) else AlertFailure
        case SessionExpired => NoEffect
        case NetworkError => NoEffect;
      Outcome(Some(Request("DELETE", FilesUrl(FilesEndpoint, path), c.headers)), c.stored, c.reload, effect, false)
  }

  /** `downloadFile(path)`: the payload is fetched with the token (a plain
      link cannot carry it) and saved under the path's last segment; every
      failure, including an expired session, ends in an alert. */
  function DownloadFile(stored: Option<string>, path: string, reply: Reply): (o: Outcome)
    ensures o.request.Some? && o.request.value.url == FilesUrl(DownloadEndpoint, path)
    ensures HasToken(stored) ==> Authorization in o.request.value.headers
                                 && o.request.value.headers[Authorization] == stored.value
    ensures reply.Status? && IsOk(reply.code) ==> o.effect == SaveAs(LastSegment(path))
    ensures !(reply.Status? && IsOk(reply.code)) ==> o.effect == AlertFailure
    ensures o.stored == (if reply == Status(401) then None else stored)
    ensures o.reload <==> reply == Status(401)
    ensures o.request.Some? && o.request.value.headers == RequestHeaders(stored, map[], None)
    ensures !o.clearInput
  {
    var c := ApiFetch(stored, map[], None, reply);
    var effect := if c.fetched.Response? && IsOk(c.fetched.code) then SaveAs(LastSegment(path)) else AlertFailure;
    Outcome(Some(Request("GET", FilesUrl(DownloadEndpoint, path), c.headers)), c.stored, c.reload, effect, false)
  }

  /** The `Authorization` value the upload sends: the stored token verbatim,
      or the text `null` when nothing is stored (a header value is converted
      to a string). */
  function UploadAuthorization(stored: Option<string>): string
  {
    match stored
    case Some(t) => t
    case None => "null"
  }

  /** The upload's `Authorization` header against the one `apiFetch` would
      send: the same token when one is stored; the text `null` where
      `apiFetch` sends no header because nothing is stored; and an empty
      header where `apiFetch` sends none because the stored token is empty. */
  lemma UploadAuthorizationHeader(stored: Option<string>)
    ensures var h := RequestHeaders(stored, map[], None);
            && (HasToken(stored) ==> UploadAuthorization(stored) == h[Authorization])
            && (stored.None? ==> UploadAuthorization(stored) == "null" && Authorization !in h)
            && (stored == Some("") ==> UploadAuthorization(stored) == "" && Authorization !in h)
  {
  }

  /** The upload handler: with no file chosen nothing happens. Otherwise the
      file goes to `Child(currentPath, name)` as a multipart POST carrying
      only an `Authorization` header (no JSON content type); a 401 removes
      the token and reloads without an error, a success refreshes the
      current directory, any other failure alerts; the file input is
      cleared after every attempt. The target is built from the directory
      current when the file is chosen, `currentPath`; the refresh reads the
      directory again once the answer arrives, `answeredIn`, which differs
      when the operator navigated while the upload was running. */
  function Upload(currentPath: string, stored: Option<string>, file: Option<string>, reply: Reply,
                  answeredIn: string): (o: Outcome)
    ensures file.None? ==> o == Outcome(None, stored, false, NoEffect, false)
    ensures file.Some? ==>
              && o.clearInput
              && o.request.Some?
              && o.request.value.verb == "POST"
              && o.request.value.url == FilesUrl(FilesEndpoint, Child(currentPath, file.value))
              && o.request.value.headers.Keys == {Authorization}
              && o.request.value.headers[Authorization] == UploadAuthorization(stored)
    ensures file.Some? && reply == Status(401) ==> o.stored.None? && o.reload && o.effect == NoEffect
    ensures reply != Status(401) ==> o.stored == stored && !o.reload
    ensures o.effect.Refresh? <==> file.Some? && reply.Status? && IsOk(reply.code)
    ensures o.effect.Refresh? ==> o.effect.path == answeredIn
    ensures file.Some? && reply != Status(401) && !(reply.Status? && IsOk(reply.code)) ==> o.effect == AlertFailure
  {
    match file
    case None => Outcome(None, stored, false, NoEffect, false)
    case Some(name) =>
      var request := Request("POST", FilesUrl(FilesEndpoint, Child(currentPath, name)),
                             map[Authorization := UploadAuthorization(stored)]);
      match reply
      case NoResponse => Outcome(Some(request), stored, false, AlertFailure, true)
      case Status(code) =>
        if code == 401 then Outcome(Some(request), None, true, NoEffect, true)
        else if IsOk(code) then Outcome(Some(request), stored, false, Refresh(answeredIn), true)
        else Outcome(Some(request), stored, false, AlertFailure, true)
  }

  /** Uploading `report.csv` while in `docs/2024`, and still there when the
      answer arrives, targets `docs/2024/report.csv` and, on success,
      refreshes `docs/2024`. */
  lemma UploadScenario(stored: Option<string>, dir: string, file: string)
    requires dir == "docs/2024" && file == "report.csv"
    ensures var o := Upload(dir, stored, Some(file), Status(200), dir);
            && FilesEndpoint <= o.request.value.url
            && Decode(o.request.value.url[|FilesEndpoint|..]) == Some("docs/2024/report.csv")
            && o.effect == Refresh("docs/2024")
  {
    assert Child(dir, file) == "docs/2024" + "/" + "report.csv" == "docs/2024/report.csv";
  }

  /** A 401 ends the session the same way whichever file operation
      received it: the token is gone and the page reloads. */
  lemma SessionEndsOn401(b: Browser, stored: Option<string>, path: string, listing: seq<FileEntry>,
                         file: string)
    ensures var o := LoadFiles(b, stored, path, Status(401), listing).1; o.stored.None? && o.reload
    ensures var o := DeleteFile(b.currentPath, stored, path, true, Status(401)); o.stored.None? && o.reload
    ensures var o := DownloadFile(stored, path, Status(401)); o.stored.None? && o.reload
    ensures var o := Upload(b.currentPath, stored, Some(file), Status(401), b.currentPath); o.stored.None? && o.reload
  {
  }
}

=== FILE: launcher_info.dfy ===
/** The public site's launcher display names (web/src/lib/launcher-info.ts):
    a fixed table from launcher key to display information, and a lookup
    that falls back to the key itself. */
module LauncherInfo {

  /** The information kept per launcher; no entry sets a logo. */
  datatype Info = Info(displayName: string)

  /** `LAUNCHER_INFO_MAP`. The three server launchers carry the Chinese
      word for "server" (U+670D U+52A1 U+7AEF). */
  const InfoMap: map<string, Info> := map[
    "zl" := Info("ZalithLauncher"),
    "zl2" := Info("ZalithLauncher2"),
    "hmcl" := Info("Hello Minecraft! Launcher"),
    "MG" := Info("MobileGlues"),
    "fcl" := Info("FoldCraftLauncher"),
    "FCL_Turnip" := Info("FCL_Turnip Plugin"),
    "shizuku" := Info("Shizuku"),
    "leaves" := Info("Leaves \U{670D}\U{52A1}\U{7AEF}"),
    "leaf" := Info("Leaf \U{670D}\U{52A1}\U{7AEF}"),
    "luminol" := Info("Luminol \U{670D}\U{52A1}\U{7AEF}")
  ]

  /** `getLauncherDisplayName(name)`: `InfoMap[name]?.displayName || name`.
      Keys are matched exactly, case included; keys inherited from the
      object prototype carry no `displayName` and so fall back as well. */
  function DisplayName(name: string): (r: string)
    ensures name in InfoMap ==> r == InfoMap[name].displayName
    ensures name !in InfoMap ==> r == name
    ensures name != "" ==> r != ""
  {
    if name in InfoMap && InfoMap[name].displayName != "" then InfoMap[name].displayName else name
  }

  /** Every display name is non-empty and none is itself a key. */
  lemma TableShape()
    ensures forall k :: k in InfoMap ==> InfoMap[k].displayName != ""
    ensures forall k :: k in InfoMap ==> InfoMap[k].displayName !in InfoMap
  {
  }

  /** Looking a name up twice gives the same as looking it up once. */
  lemma DisplayNameIdempotent(name: string)
    ensures DisplayName(DisplayName(name)) == DisplayName(name)
  {
    TableShape();
  }

  /** Known keys, and the exact, case-sensitive match. */
  lemma Examples()
    ensures DisplayName("zl") == "ZalithLauncher"
    ensures DisplayName("MG") == "MobileGlues"
    ensures DisplayName("mg") == "mg"
    ensures DisplayName("leaves") == "Leaves \U{670D}\U{52A1}\U{7AEF}"
  {
  }
}

=== FILE: session.dfy ===
/** The admin console's session: the token kept under `admin_token` in the
    browser's local storage, its recovery from a one-shot cookie at start-up,
    login and logout, and the authenticated-request wrapper `apiFetch` that
    attaches the token and ends the session on a 401 (web/admin/app.js).

    Local storage is modelled as an `Option<string>`: `None` is a missing
    key (`getItem` returns `null`). JavaScript treats the empty string as
    false, so `Some("")` counts as "no token" wherever the source tests the
    value with `if (token)`. */
module Session {
  import opened Wrappers
  import opened Text

  /** The cookie carrying a token from the OAuth-style callback. */
  const CookiePrefix: string := "admin_token="

  const Authorization: string := "Authorization"
  const ContentType: string := "Content-Type"
  const Json: string := "application/json"

  /** JavaScript truthiness of a stored token. */
  predicate HasToken(stored: Option<string>) {
    stored.Some? && stored.value != ""
  }

  // ---------------------------------------------------------------------
  // Start-up recovery from the cookie

  /** A `;`-separated piece of `document.cookie` that, once trimmed, is the
      `admin_token` cookie. */
  predicate IsTokenCookie(piece: string) {
    CookiePrefix <= Trim(piece)
  }

  /** `i` is the first token cookie among `pieces`. */
  predicate FirstTokenCookieAt(pieces: seq<string>, i: int) {
    && 0 <= i < |pieces|
    && IsTokenCookie(pieces[i])
    && forall j :: 0 <= j < i ==> !IsTokenCookie(pieces[j])
  }

  /** Some piece of the cookie string is a token cookie. */
  predicate HasTokenCookie(pieces: seq<string>) {
    exists i :: 0 <= i < |pieces| && IsTokenCookie(pieces[i])
  }

  /** The text after `admin_token=` in a token cookie. */
  function CookieValue(piece: string): string
    requires IsTokenCookie(piece)
  {
    Trim(piece)[|CookiePrefix|..]
  }

  /** Index of the first token cookie, if there is one. */
  function FirstTokenCookie(pieces: seq<string>): (r: Option<nat>)
    ensures r.None? <==> !HasTokenCookie(pieces)
    ensures r.Some? ==> FirstTokenCookieAt(pieces, r.value)
  {
    if |pieces| == 0 then None
    else if IsTokenCookie(pieces[0]) then Some(0)
    else match FirstTokenCookie(pieces[1..])
      case None => None
      case Some(i) => Some(i + 1)
  }

  /** What start-up leaves behind: the stored token, whether the cookie is
      overwritten with an expired one, and whether the admin page opens. */
  datatype Startup = Startup(stored: Option<string>, eraseCookie: bool, showAdmin: bool)

  /** Start-up: when local storage holds no (truthy) token, the first
      `admin_token=` cookie, if any, supplies it; the value is copied into
      local storage and the cookie is erased. The admin page opens when a
      truthy token is then stored. */
  method RecoverToken(stored: Option<string>, cookie: string) returns (r: Startup)
    ensures HasToken(stored) ==> r.stored == stored && !r.eraseCookie
    ensures !HasToken(stored) ==> (r.eraseCookie <==> FirstTokenCookie(Split(cookie, ';')).Some?)
    ensures r.eraseCookie ==>
              var pieces := Split(cookie, ';');
              FirstTokenCookie(pieces).Some?
              && r.stored == Some(CookieValue(pieces[FirstTokenCookie(pieces).value]))
    ensures !r.eraseCookie ==> r.stored == stored
    ensures r.showAdmin <==> HasToken(r.stored)
  {
    var token := stored;
    var erase := false;
    if !HasToken(stored) {
      var pieces := Split(cookie, ';');
      var k := 0;
      while k < |pieces|
        invariant 0 <= k <= |pieces|
        invariant forall j :: 0 <= j < k ==> !IsTokenCookie(pieces[j])
        invariant !erase && token == stored
      {
        if IsTokenCookie(pieces[k]) {
          FirstTokenCookieIs(pieces, k);
          token := Some(CookieValue(pieces[k]));
          erase := true;
          break;
        }
        k := k + 1;
      }
    }
    r := Startup(token, erase, HasToken(token));
  }

  /** The first token cookie is unique. */
  lemma FirstTokenCookieIs(pieces: seq<string>, k: nat)
    requires FirstTokenCookieAt(pieces, k)
    ensures FirstTokenCookie(pieces) == Some(k)
  {
  }

  // ---------------------------------------------------------------------
  // Login and logout

  /** The login form's user name: the typed one, or `admin` when blank. */
  function LoginUser(typed: string): (u: string)
    ensures u != ""
    ensures typed != "" ==> u == typed
    ensures typed == "" ==> u == "admin"
  {
    if typed != "" then typed else "admin"
  }

  /** The server's answer to `POST /api/login`. */
  datatype LoginReply =
    | LoggedIn(token: string)      // 2xx with `{token}`
    | Rejected(text: string)       // non-2xx, with the response body
    | Unreachable                  // `fetch` rejected

  datatype LoginError = ServerMessage(text: string) | DefaultFailure | ConnectionFailed

  datatype LoginOutcome = LoginOutcome(stored: Option<string>, showAdmin: bool, error: Option<LoginError>)

  /** Handling the login reply: a success stores the returned token and
      opens the admin page; a rejection shows the body text, or a fixed
      message when the body is empty; an unreachable server shows a
      connection message. Only a success writes the token. */
  function Login(stored: Option<string>, reply: LoginReply): (o: LoginOutcome)
    ensures reply.LoggedIn? <==> o.showAdmin
    ensures reply.LoggedIn? ==> o.stored == Some(reply.token) && o.error.None?
    ensures !reply.LoggedIn? ==> o.stored == stored && o.error.Some?
    ensures reply.Rejected? && reply.text != "" ==> o.error == Some(ServerMessage(reply.text))
    ensures reply.Rejected? && reply.text == "" ==> o.error == Some(DefaultFailure)
    ensures reply.Unreachable? ==> o.error == Some(ConnectionFailed)
  {
    match reply
    case LoggedIn(t) => LoginOutcome(Some(t), true, None)
    case Rejected(text) =>
      LoginOutcome(stored, false, Some(if text != "" then ServerMessage(text) else DefaultFailure))
    case Unreachable => LoginOutcome(stored, false, Some(ConnectionFailed))
  }

  /** Logout removes the token (the page then reloads). Removing is
      idempotent. */
  function Logout(stored: Option<string>): (r: Option<string>)
    ensures r.None? && !HasToken(r)
  {
    None
  }

  // ---------------------------------------------------------------------
  // apiFetch

  type Headers = map<string, string>

  /** JavaScript truthiness of a request body (`JSON.stringify` text). */
  predicate HasBody(body: Option<string>) {
    body.Some? && body.value != ""
  }

  /** The caller supplied a truthy `Content-Type`. */
  predicate HasContentType(h: Headers) {
    ContentType in h && h[ContentType] != ""
  }

  /** The headers `apiFetch` sends: the caller's headers, with
      `Authorization` set to the raw stored token when one is stored, and
      `Content-Type: application/json` added when there is a body and the
      caller gave no content type. */
  function RequestHeaders(stored: Option<string>, headers: Headers, body: Option<string>): (h: Headers)
    ensures HasToken(stored) ==> Authorization in h && h[Authorization] == stored.value
    ensures !HasToken(stored) ==>
              (Authorization in h <==> Authorization in headers)
              && (Authorization in headers ==> h[Authorization] == headers[Authorization])
    ensures HasBody(body) && !HasContentType(headers) ==> ContentType in h && h[ContentType] == Json
    ensures !(HasBody(body) && !HasContentType(headers)) ==>
              (ContentType in h <==> ContentType in headers)
              && (ContentType in headers ==> h[ContentType] == headers[ContentType])
    ensures forall k :: k in headers ==> k in h
    ensures forall k :: k in h && k != Authorization && k != ContentType ==>
              k in headers && h[k] == headers[k]
  {
    var withToken := if HasToken(stored) then headers[Authorization := stored.value] else headers;
    if HasBody(body) && !HasContentType(withToken) then withToken[ContentType := Json] else withToken
  }

  /** What the network gave back for one request. */
  datatype Reply = NoResponse | Status(code: int)

  /** What `apiFetch` hands its caller: the response, the session-expired
      error it throws on 401, or the network error `fetch` threw. */
  datatype Fetched = Response(code: int) | SessionExpired | NetworkError

  /** One `apiFetch` call: the headers sent, the result, the token left in
      storage, and whether the page reloads. */
  datatype Call = Call(headers: Headers, fetched: Fetched, stored: Option<string>, reload: bool)

  predicate IsOk(code: int) {
    200 <= code <= 299
  }

  /** `apiFetch(url, options)`: on a 401 the token is removed, the page
      reloads and a session-expired error is raised, whatever the endpoint;
      any other status comes back unchanged and touches nothing. */
  function ApiFetch(stored: Option<string>, headers: Headers, body: Option<string>, reply: Reply): (c: Call)
    ensures c.headers == RequestHeaders(stored, headers, body)
    ensures c.fetched == SessionExpired <==> reply == Status(401)
    ensures c.fetched == SessionExpired ==> c.stored.None? && c.reload
    ensures c.fetched != SessionExpired ==> c.stored == stored && !c.reload
    ensures c.fetched == NetworkError <==> reply == NoResponse
    ensures forall code :: reply == Status(code) && code != 401 ==> c.fetched == Response(code)
  {
    var h := RequestHeaders(stored, headers, body);
    match reply
    case NoResponse => Call(h, NetworkError, stored, false)
    case Status(code) =>
      if code == 401 then Call(h, SessionExpired, None, true)
      else Call(h, Response(code), stored, false)
  }

  /** After a 401, no later `apiFetch` carries a token unless its caller
      supplied an `Authorization` header itself. */
  lemma ExpiredSessionSendsNoToken(stored: Option<string>, h1: Headers, b1: Option<string>,
                                   h2: Headers, b2: Option<string>, reply: Reply)
    ensures var after := ApiFetch(stored, h1, b1, Status(401)).stored;
            Authorization !in h2 ==> Authorization !in ApiFetch(after, h2, b2, reply).headers
  {
  }
}

=== FILE: size_format.dfy ===
/** `formatSize` of the admin console's file browser (web/admin/app.js):
    a byte count shown with the unit B, KB, MB, GB or TB and at most two
    decimals.

    The source picks the unit as `Math.floor(Math.log(bytes) / Math.log(1024))`
    and renders `parseFloat((bytes / 1024 ** i).toFixed(2))`. The model uses
    the exact integer unit index. For sizes below 2^53 the quotient
    `bytes / 1024 ** i` is an exact double (a division by a power of two), so
    `toFixed(2)` is the quotient rounded to hundredths with ties going up,
    and `parseFloat` followed by string conversion drops trailing zeros of
    the fraction; all of this is integer arithmetic here. */
module SizeFormat {
  import opened Wrappers
  import opened Text

  const Units: seq<string> := ["B", "KB", "MB", "GB", "TB"]

  /** 1024 to the power `i`. */
  function Pow1024(i: nat): (p: nat)
    ensures p >= 1
  {
    if i == 0 then 1 else 1024 * Pow1024(i - 1)
  }

  /** The unit index of a non-zero size: the number of times it can be
      divided by 1024 before dropping below 1024. */
  function UnitIndex(bytes: nat): (i: nat)
    requires bytes >= 1
    ensures Pow1024(i) <= bytes < Pow1024(i + 1)
  {
    if bytes < 1024 then 0
    else
      var j := UnitIndex(bytes / 1024);
      assert Pow1024(j + 1) == 1024 * Pow1024(j);
      assert Pow1024(j + 2) == 1024 * Pow1024(j + 1);
      assert 1024 * (bytes / 1024) <= bytes < 1024 * (bytes / 1024 + 1);
      assert 1024 * Pow1024(j) <= 1024 * (bytes / 1024);
      assert 1024 * (bytes / 1024 + 1) <= 1024 * Pow1024(j + 1);
      j + 1
  }

  lemma {:induction false} Pow1024Monotonic(i: nat, j: nat)
    requires i < j
    ensures Pow1024(i + 1) <= Pow1024(j)
    decreases j
  {
    if i + 1 < j {
      Pow1024Monotonic(i, j - 1);
    }
  }

  /** The unit index is the only index whose power range holds the size. */
  lemma UnitIndexUnique(bytes: nat, j: nat)
    requires bytes >= 1
    requires Pow1024(j) <= bytes < Pow1024(j + 1)
    ensures UnitIndex(bytes) == j
  {
    var i := UnitIndex(bytes);
    if i < j {
      Pow1024Monotonic(i, j);
    } else if j < i {
      Pow1024Monotonic(j, i);
    }
  }

  /** The unit name; past terabytes the source indexes beyond its unit
      table and prints `undefined`. */
  function UnitName(i: nat): string
  {
    if i < |Units| then Units[i] else "undefined"
  }

  /** `(bytes / divisor).toFixed(2)` as an integer number of hundredths:
      the nearest hundredth, the larger one on a tie. */
  function Hundredths(bytes: nat, divisor: nat): (n: nat)
    requires divisor >= 1
    ensures 2 * n * divisor <= 200 * bytes + divisor < 2 * (n + 1) * divisor
  {
    (200 * bytes + divisor) / (2 * divisor)
  }

  /** The shortest decimal text of `n` hundredths, as `parseFloat`
      followed by string conversion produces it: no fraction when it is
      zero, and no trailing zero in it. */
  function HundredthsText(n: nat): (s: string)
    ensures n % 100 == 0 ==> s == NatToString(n / 100)
    ensures n % 100 != 0 ==> NatToString(n / 100) + "." <= s
    ensures n % 100 != 0 ==> s[|s| - 1] != '0' && |s| <= |NatToString(n / 100)| + 3
  {
    var whole := NatToString(n / 100);
    var frac := n % 100;
    if frac == 0 then whole
    else if frac % 10 == 0 then whole + "." + [DigitChar(frac / 10)]
    else whole + "." + [DigitChar(frac / 10), DigitChar(frac % 10)]
  }

  predicate AllDigits(s: string) {
    forall k :: 0 <= k < |s| ==> IsDigit(s[k])
  }

  /** Reads a decimal amount with at most two fraction digits as a number
      of hundredths. */
  function ParseHundredths(s: string): Option<nat>
  {
    if '.' !in s then
      if s != "" && AllDigits(s) then Some(100 * ParseNat(s)) else None
    else
      var i := IndexOf(s, '.');
      var whole := s[..i];
      var frac := s[i + 1..];
      if whole == "" || !AllDigits(whole) || !(1 <= |frac| <= 2) || !AllDigits(frac) then None
      else if |frac| == 1 then Some(100 * ParseNat(whole) + 10 * DigitValue(frac[0]))
      else Some(100 * ParseNat(whole) + 10 * DigitValue(frac[0]) + DigitValue(frac[1]))
  }

  lemma NoPointInDigits(w: string)
    requires AllDigits(w)
    ensures '.' !in w
  {
  }

  /** An amount with a fraction reads as its whole part and its digits. */
  lemma ParseWithFraction(w: string, ds: string)
    requires w != "" && AllDigits(w) && 1 <= |ds| <= 2 && AllDigits(ds)
    ensures ParseHundredths(w + "." + ds) ==
            Some(100 * ParseNat(w) + 10 * DigitValue(ds[0]) + (if |ds| == 2 then DigitValue(ds[1]) else 0))
  {
    NoPointInDigits(w);
    var s := w + "." + ds;
    IndexOfAfterPrefix(w, ds, '.');
    assert s[..|w|] == w;
    assert s[|w| + 1..] == ds;
  }

  /** A whole amount reads back as its hundredths. */
  lemma WholeParses(n: nat)
    requires n % 100 == 0
    ensures ParseHundredths(HundredthsText(n)) == Some(n)
  {
    ParseNatToString(n / 100);
    NoPointInDigits(NatToString(n / 100));
  }

  /** An amount with one fraction digit reads back as its hundredths. */
  lemma OneDigitParses(n: nat)
    requires n % 100 != 0 && n % 100 % 10 == 0
    ensures ParseHundredths(HundredthsText(n)) == Some(n)
  {
    var w := NatToString(n / 100);
    ParseNatToString(n / 100);
    var ds := [DigitChar(n % 100 / 10)];
    assert HundredthsText(n) == w + "." + ds;
    ParseWithFraction(w, ds);
  }

  /** An amount with two fraction digits reads back as its hundredths. */
  lemma TwoDigitsParse(n: nat)
    requires n % 100 % 10 != 0
    ensures ParseHundredths(HundredthsText(n)) == Some(n)
  {
    var w := NatToString(n / 100);
    ParseNatToString(n / 100);
    var ds := [DigitChar(n % 100 / 10), DigitChar(n % 100 % 10)];
    assert HundredthsText(n) == w + "." + ds;
    ParseWithFraction(w, ds);
  }

  /** The printed amount reads back as exactly the hundredths it was
      printed from. */
  lemma HundredthsTextParses(n: nat)
    ensures ParseHundredths(HundredthsText(n)) == Some(n)
  {
    if n % 100 == 0 {
      WholeParses(n);
    } else if n % 100 % 10 == 0 {
      OneDigitParses(n);
    } else {
      TwoDigitsParse(n);
    }
  }

  /** `formatSize(bytes)`. */
  function FormatSize(bytes: nat): string
  {
    if bytes == 0 then "0 B"
    else
      var i := UnitIndex(bytes);
      HundredthsText(Hundredths(bytes, Pow1024(i))) + " " + UnitName(i)
  }

  lemma MulMonotonic(a: nat, b: nat, c: nat)
    requires a <= b
    ensures a * c <= b * c
  {
  }

  lemma DivExact(x: nat, y: nat, q: nat)
    requires y >= 1 && q * y <= x < (q + 1) * y
    ensures x / y == q
  {
    var r := x / y;
    assert x == r * y + x % y;
    if r < q {
      MulMonotonic(r + 1, q, y);
    } else if r > q {
      MulMonotonic(q + 1, r, y);
    }
  }

  /** A whole number of units rounds to itself. */
  lemma HundredthsOfMultiple(m: nat, d: nat)
    requires d >= 1
    ensures Hundredths(m * d, d) == 100 * m
  {
    assert (100 * m) * (2 * d) == 200 * (m * d);
    assert (100 * m + 1) * (2 * d) == 200 * (m * d) + 2 * d;
    DivExact(200 * (m * d) + d, 2 * d, 100 * m);
  }

  /** A whole number `m` of some unit is printed as the integer `m`
      followed by that unit. */
  lemma ExactMultiple(m: nat, i: nat)
    requires 1 <= m < 1024 && i < |Units|
    ensures FormatSize(m * Pow1024(i)) == NatToString(m) + " " + Units[i]
  {
    var d := Pow1024(i);
    var bytes := m * d;
    assert Pow1024(i + 1) == 1024 * d;
    MulMonotonic(1, m, d);
    MulMonotonic(m, 1023, d);
    UnitIndexUnique(bytes, i);
    HundredthsOfMultiple(m, d);
    assert (100 * m) / 100 == m && (100 * m) % 100 == 0;
  }

  /** Every non-zero size below 1024^5 gets the unit `Units[i]` with
      `1024^i <= bytes < 1024^(i+1)`, the printed amount is the size in that
      unit to the nearest hundredth, and that amount is at least 1. */
  lemma UnitChoice(bytes: nat)
    requires 1 <= bytes < Pow1024(|Units|)
    ensures var i := UnitIndex(bytes);
            && i < |Units|
            && Pow1024(i) <= bytes < Pow1024(i + 1)
            && FormatSize(bytes) == HundredthsText(Hundredths(bytes, Pow1024(i))) + " " + Units[i]
            && Hundredths(bytes, Pow1024(i)) >= 100
  {
    var i := UnitIndex(bytes);
    if i > |Units| {
      Pow1024Monotonic(|Units|, i);
    }
    var d := Pow1024(i);
    AtLeastOneUnit(bytes, d, Hundredths(bytes, d));
  }

  /** Reading `formatSize`'s output back: for `1 <= bytes < 1024^5` it is an
      amount and a unit name; the amount, read as a decimal, is the size in
      that unit rounded to the nearest hundredth (ties up), and the unit is
      the one whose power range holds the size. */
  lemma ReadBack(bytes: nat)
    requires 1 <= bytes < Pow1024(|Units|)
    ensures var i := UnitIndex(bytes);
            var d := Pow1024(i);
            var n := Hundredths(bytes, d);
            && i < |Units|
            && d <= bytes < 1024 * d
            && FormatSize(bytes) == HundredthsText(n) + " " + Units[i]
            && ParseHundredths(HundredthsText(n)) == Some(n)
            && 2 * n * d <= 200 * bytes + d < 2 * (n + 1) * d
  {
    UnitChoice(bytes);
    HundredthsTextParses(Hundredths(bytes, Pow1024(UnitIndex(bytes))));
  }

  lemma AtLeastOneUnit(bytes: nat, d: nat, n: nat)
    requires 1 <= d <= bytes
    requires 200 * bytes + d < 2 * (n + 1) * d
    ensures n >= 100
  {
    if n < 100 {
      MulMonotonic(n + 1, 100, d);
    }
  }

  /** The values the file browser shows for 0 B, 1 KB, 1.5 KB and 1 MB. */
  lemma Examples()
    ensures FormatSize(0) == "0 B"
    ensures FormatSize(1024) == "1 KB"
    ensures FormatSize(1536) == "1.5 KB"
    ensures FormatSize(1048576) == "1 MB"
  {
    ExactMultiple(1, 1);
    ExactMultiple(1, 2);
    UnitIndexUnique(1536, 1);
    assert Hundredths(1536, 1024) == 150;
  }
}

=== FILE: text.dfy ===
/** The few JavaScript string operations the console relies on, with the
    exact semantics of the ECMAScript built-ins: `String.prototype.trim`,
    `split` and `Array.prototype.join` with a one-character separator, and
    the decimal rendering of a non-negative integer. */
module Text {

  /** The characters `String.prototype.trim` removes: the ECMAScript
      WhiteSpace set (tab, vertical tab, form feed, space, no-break space,
      byte-order mark and the Unicode space separators) and the four line
      terminators. */
  predicate IsJsSpace(c: char) {
    || c == '\t' || c == '\U{B}' || c == '\U{C}' || c == ' '
    || c == '\U{A0}' || c == '\U{FEFF}'
    || c == '\U{1680}' || ('\U{2000}' <= c <= '\U{200A}')
    || c == '\U{202F}' || c == '\U{205F}' || c == '\U{3000}'
    || c == '\n' || c == '\r' || c == '\U{2028}' || c == '\U{2029}'
  }

  predicate AllSpace(s: string) {
    forall i :: 0 <= i < |s| ==> IsJsSpace(s[i])
  }

  /** Drops leading whitespace. */
  function TrimStart(s: string): string
  {
    if |s| > 0 && IsJsSpace(s[0]) then TrimStart(s[1..]) else s
  }

  /** Drops trailing whitespace. */
  function TrimEnd(s: string): string
  {
    if |s| > 0 && IsJsSpace(s[|s| - 1]) then TrimEnd(s[..|s| - 1]) else s
  }

  /** `s.trim()`. */
  function Trim(s: string): string
  {
    TrimEnd(TrimStart(s))
  }

  /** `TrimStart` keeps the suffix that starts at the first non-space
      character. */
  lemma {:induction false} TrimStartSpec(s: string)
    ensures var r := TrimStart(s);
            && |r| <= |s| && r == s[|s| - |r|..]
            && AllSpace(s[..|s| - |r|])
            && (r == [] || !IsJsSpace(r[0]))
  {
    if |s| > 0 && IsJsSpace(s[0]) {
      TrimStartSpec(s[1..]);
      var r := TrimStart(s);
      assert s[..|s| - |r|] == [s[0]] + s[1..][..|s| - 1 - |r|];
    }
  }

  /** `TrimEnd` keeps the prefix that ends at the last non-space
      character. */
  lemma {:induction false} TrimEndSpec(s: string)
    ensures var r := TrimEnd(s);
            && |r| <= |s| && r == s[..|r|]
            && AllSpace(s[|r|..])
            && (r == [] || !IsJsSpace(r[|r| - 1]))
  {
    if |s| > 0 && IsJsSpace(s[|s| - 1]) {
      TrimEndSpec(s[..|s| - 1]);
      var r := TrimEnd(s);
      assert s[|r|..] == s[..|s| - 1][|r|..] + [s[|s| - 1]];
    }
  }

  /** `s.trim()` is the contiguous slice of `s` left after cutting
      whitespace from both ends, and neither of its ends is whitespace. */
  lemma TrimSpec(s: string)
    ensures var r := Trim(s);
            && (r == [] || (!IsJsSpace(r[0]) && !IsJsSpace(r[|r| - 1])))
            && exists a :: 0 <= a <= |s| - |r| && r == s[a..a + |r|]
                           && AllSpace(s[..a]) && AllSpace(s[a + |r|..])
  {
    var t := TrimStart(s);
    var r := TrimEnd(t);
    TrimStartSpec(s);
    TrimEndSpec(t);
    var a := |s| - |t|;
    assert t == s[a..];
    assert r == t[..|r|];
    assert r == s[a..a + |r|];
    assert s[a + |r|..] == t[|r|..];
  }

  /** Position of the first occurrence of `c` in `s`. */
  function IndexOf(s: string, c: char): (i: nat)
    requires c in s
    ensures i < |s| && s[i] == c && c !in s[..i]
  {
    if s[0] == c then 0 else 1 + IndexOf(s[1..], c)
  }

  /** `s.split(sep)` for a one-character separator: the maximal
      separator-free pieces between occurrences of `sep`, so at least one
      piece (`"".split("/")` is `[""]`). */
  function Split(s: string, sep: char): (parts: seq<string>)
    ensures |parts| >= 1
    ensures forall i :: 0 <= i < |parts| ==> sep !in parts[i]
    decreases |s|
  {
    if sep !in s then [s]
    else
      var i := IndexOf(s, sep);
      [s[..i]] + Split(s[i + 1..], sep)
  }

  /** `parts.join(sep)`: the pieces with one `sep` between neighbours. */
  function Join(parts: seq<string>, sep: char): string
  {
    if |parts| == 0 then ""
    else if |parts| == 1 then parts[0]
    else parts[0] + [sep] + Join(parts[1..], sep)
  }

  /** Joining the pieces of a split gives back the original string. */
  lemma {:induction false} JoinSplit(s: string, sep: char)
    ensures Join(Split(s, sep), sep) == s
    decreases |s|
  {
    if sep in s {
      var i := IndexOf(s, sep);
      JoinSplit(s[i + 1..], sep);
      assert Split(s, sep) == [s[..i]] + Split(s[i + 1..], sep);
      assert s == s[..i] + [sep] + s[i + 1..];
    }
  }

  /** The first separator of `a + [sep] + b` is the one after `a` when `a`
      has none. */
  lemma {:induction false} IndexOfAfterPrefix(a: string, b: string, sep: char)
    requires sep !in a
    ensures sep in a + [sep] + b
    ensures IndexOf(a + [sep] + b, sep) == |a|
  {
    var s := a + [sep] + b;
    assert s[|a|] == sep;
    if |a| > 0 {
      IndexOfAfterPrefix(a[1..], b, sep);
      assert s[1..] == a[1..] + [sep] + b;
    }
  }

  /** Splitting a join of separator-free pieces gives back the pieces. */
  lemma {:induction false} SplitJoin(parts: seq<string>, sep: char)
    requires |parts| >= 1
    requires forall i :: 0 <= i < |parts| ==> sep !in parts[i]
    ensures Split(Join(parts, sep), sep) == parts
  {
    if |parts| > 1 {
      var head := parts[0];
      var rest := Join(parts[1..], sep);
      var s := head + [sep] + rest;
      assert Join(parts, sep) == s;
      IndexOfAfterPrefix(head, rest, sep);
      assert s[..|head|] == head;
      assert s[|head| + 1..] == rest;
      assert Split(s, sep) == [head] + Split(rest, sep);
      SplitJoin(parts[1..], sep);
      assert parts == [head] + parts[1..];
    }
  }

  /** Appending a piece to a non-empty list appends the separator and the
      piece to the join. */
  lemma {:induction false} JoinSnoc(xs: seq<string>, y: string, sep: char)
    requires |xs| >= 1
    ensures Join(xs + [y], sep) == Join(xs, sep) + [sep] + y
  {
    if |xs| > 1 {
      JoinSnoc(xs[1..], y, sep);
      assert (xs + [y])[1..] == xs[1..] + [y];
    }
  }

  /** Splitting `s + [sep] + t`, with `t` separator-free, adds exactly one
      piece, `t`, after the pieces of `s`. */
  lemma SplitSnoc(s: string, t: string, sep: char)
    requires sep !in t
    ensures Split(s + [sep] + t, sep) == Split(s, sep) + [t]
  {
    var ps := Split(s, sep);
    JoinSplit(s, sep);
    JoinSnoc(ps, t, sep);
    SplitJoin(ps + [t], sep);
  }

  // ---------------------------------------------------------------------
  // Decimal rendering of non-negative integers (`String(n)`)

  function DigitChar(d: nat): (c: char)
    requires d < 10
    ensures '0' <= c <= '9' && c as int - '0' as int == d
  {
    ['0', '1', '2', '3', '4', '5', '6', '7', '8', '9'][d]
  }

  predicate IsDigit(c: char) {
    '0' <= c <= '9'
  }

  function DigitValue(c: char): (d: nat)
    requires IsDigit(c)
  {
    c as int - '0' as int
  }

  /** `String(n)` for a non-negative integer: its decimal digits, most
      significant first, without leading zeros. */
  function NatToString(n: nat): (r: string)
    ensures |r| >= 1
    ensures forall i :: 0 <= i < |r| ==> IsDigit(r[i])
    ensures r[0] == '0' ==> n == 0 && r == "0"
  {
    if n < 10 then [DigitChar(n)] else NatToString(n / 10) + [DigitChar(n % 10)]
  }

  /** The value of a string of decimal digits. */
  function ParseNat(s: string): nat
    requires forall i :: 0 <= i < |s| ==> IsDigit(s[i])
  {
    if |s| == 0 then 0
    else ParseNat(s[..|s| - 1]) * 10 + DigitValue(s[|s| - 1])
  }

  /** Reading back a rendered number gives the number. */
  lemma {:induction false} ParseNatToString(n: nat)
    ensures ParseNat(NatToString(n)) == n
  {
    if n >= 10 {
      var s := NatToString(n);
      assert s[..|s| - 1] == NatToString(n / 10);
      ParseNatToString(n / 10);
    }
  }
}

=== FILE: token_store.dfy ===
/** The server's session-token store (internal/auth/auth.go): a map from
    token to expiry time, filled by `GenerateToken`, checked (and lazily
    pruned) by `ValidateToken`, and swept by `CleanupTokens`.

    Time is an integer number of nanoseconds, passed in explicitly; the
    random source is an input that either fails or yields 32 bytes. */
module TokenStore {
  import opened Wrappers

  newtype byte = x: int | 0 <= x < 256

  /** Nanoseconds, as Go's `time.Duration` counts them. */
  const Second: int := 1_000_000_000
  /** `tokenDuration = 24 * time.Hour`. */
  const TokenDuration: int := 24 * 3600 * Second
  /** Bytes drawn for one token. */
  const TokenBytes: nat := 32

  /** Token to expiry instant. */
  type Store = map<string, int>

  // ---------------------------------------------------------------------
  // hex.EncodeToString

  const HexDigits: string := "0123456789abcdef"

  predicate IsLowerHex(c: char) {
    ('0' <= c <= '9') || ('a' <= c <= 'f')
  }

  function HexDigit(n: nat): (c: char)
    requires n < 16
    ensures IsLowerHex(c)
  {
    if n < 10 then ('0' as int + n) as char else ('a' as int + n - 10) as char
  }

  function HexDigitValue(c: char): (n: nat)
    requires IsLowerHex(c)
    ensures n < 16 && HexDigit(n) == c
  {
    if c <= '9' then c as int - '0' as int else c as int - 'a' as int + 10
  }

  /** The digit function agrees with Go's lower-case hex alphabet. */
  lemma HexDigitsTable()
    ensures |HexDigits| == 16
    ensures forall n :: 0 <= n < 16 ==> HexDigits[n] == HexDigit(n)
  {
    assert HexDigits == seq(16, n requires 0 <= n < 16 => HexDigit(n));
  }

  /** Two lower-case hex digits per byte, high nibble first. */
  function HexEncode(b: seq<byte>): (s: string)
    ensures |s| == 2 * |b|
    ensures forall k :: 0 <= k < |s| ==> IsLowerHex(s[k])
  {
    if |b| == 0 then ""
    else [HexDigit(b[0] as nat / 16), HexDigit(b[0] as nat % 16)] + HexEncode(b[1..])
  }

  /** Reads hex text back into bytes; fails on an odd length or a
      character outside the lower-case alphabet. */
  function HexDecode(s: string): Option<seq<byte>>
  {
    if |s| == 0 then Some([])
    else if |s| == 1 || !IsLowerHex(s[0]) || !IsLowerHex(s[1]) then None
    else match HexDecode(s[2..])
      case None => None
      case Some(rest) => Some([(16 * HexDigitValue(s[0]) + HexDigitValue(s[1])) as byte] + rest)
  }

  /** Hex encoding loses nothing: distinct random bytes give distinct
      tokens. */
  lemma {:induction false} HexRoundTrip(b: seq<byte>)
    ensures HexDecode(HexEncode(b)) == Some(b)
  {
    if |b| > 0 {
      var s := HexEncode(b);
      assert s[2..] == HexEncode(b[1..]);
      HexRoundTrip(b[1..]);
      var hi := b[0] as nat / 16;
      var lo := b[0] as nat % 16;
      assert HexDigitValue(s[0]) == hi && HexDigitValue(s[1]) == lo;
      assert (16 * hi + lo) as byte == b[0];
      assert [b[0]] + b[1..] == b;
    }
  }

  // ---------------------------------------------------------------------
  // The three operations

  /** What `crypto/rand.Read` did: failed, or filled the buffer. */
  datatype RandomRead = ReadFailed | Read(bytes: seq<byte>)

  datatype ReadError = RandomSourceFailed

  /** The result of `GenerateToken` and the store it leaves. */
  datatype Issue = Issue(result: Result<string, ReadError>, tokens: Store)

  /** `GenerateToken`: a failed read returns the error and leaves the store
      alone; otherwise the hex text of the 32 bytes is registered to expire
      24 hours from now, replacing any earlier entry for it. */
  function GenerateToken(tokens: Store, now: int, random: RandomRead): (r: Issue)
    requires random.Read? ==> |random.bytes| == TokenBytes
    ensures random.ReadFailed? ==> r.result.Failure? && r.tokens == tokens
    ensures random.Read? ==>
              && r.result.Success?
              && |r.result.value| == 2 * TokenBytes
              && (forall k :: 0 <= k < |r.result.value| ==> IsLowerHex(r.result.value[k]))
              && HexDecode(r.result.value) == Some(random.bytes)
              && r.tokens == tokens[r.result.value := now + TokenDuration]
  {
    match random
    case ReadFailed => Issue(Failure(RandomSourceFailed), tokens)
    case Read(bytes) =>
      HexRoundTrip(bytes);
      var token := HexEncode(bytes);
      Issue(Success(token), tokens[token := now + TokenDuration])
  }

  /** Go's `now.After(expiry)`: strictly later. */
  predicate After(now: int, expiry: int) {
    now > expiry
  }

  /** The answer of `ValidateToken` and the store it leaves. */
  datatype Validation = Validation(valid: bool, tokens: Store)

  /** `ValidateToken`: an unknown token is rejected; a known one is
      accepted up to and including its expiry instant; an expired one is
      rejected and removed, and only it. */
  function ValidateToken(tokens: Store, token: string, now: int): (r: Validation)
    ensures r.valid <==> token in tokens && now <= tokens[token]
    ensures token !in tokens ==> r.tokens == tokens
    ensures token in tokens && now <= tokens[token] ==> r.tokens == tokens
    ensures token in tokens && now > tokens[token] ==>
              token !in r.tokens && r.tokens == tokens - {token}
    ensures forall t :: t in tokens && t != token ==> t in r.tokens && r.tokens[t] == tokens[t]
  {
    if token !in tokens then Validation(false, tokens)
    else if After(now, tokens[token]) then Validation(false, tokens - {token})
    else Validation(true, tokens)
  }

  /** The entries a sweep at `now` keeps. */
  function Live(tokens: Store, now: int): Store
  {
    map t | t in tokens && !After(now, tokens[t]) :: tokens[t]
  }

  /** One pass of the `CleanupTokens` loop: every entry is visited once and
      deleted when it has expired, so exactly the expired tokens go and
      every other entry keeps its expiry. */
  method CleanupSweep(tokens: Store, now: int) returns (r: Store)
    ensures forall t :: t in r <==> t in tokens && now <= tokens[t]
    ensures forall t :: t in r ==> r[t] == tokens[t]
    ensures r == Live(tokens, now)
  {
    r := tokens;
    var pending := tokens.Keys;
    while pending != {}
      invariant pending <= tokens.Keys
      invariant r.Keys <= tokens.Keys
      invariant forall t :: t in pending ==> t in r
      invariant forall t :: t in tokens && t !in pending ==> (t in r <==> now <= tokens[t])
      invariant forall t :: t in r ==> r[t] == tokens[t]
      decreases |pending|
    {
      var t :| t in pending;
      if After(now, tokens[t]) {
        r := r - {t};
      }
      pending := pending - {t};
    }
  }

  // ---------------------------------------------------------------------
  // Properties across calls

  /** Once a validation fails, the same token fails again at any later
      check against the store it left. */
  lemma RejectionIsFinal(tokens: Store, token: string, now: int, later: int)
    requires !ValidateToken(tokens, token, now).valid
    ensures !ValidateToken(ValidateToken(tokens, token, now).tokens, token, later).valid
  {
  }

  /** A fresh token is accepted exactly until 24 hours after its issue. */
  lemma IssuedTokenLifetime(tokens: Store, now: int, bytes: seq<byte>, later: int)
    requires |bytes| == TokenBytes
    ensures var issue := GenerateToken(tokens, now, Read(bytes));
            ValidateToken(issue.tokens, issue.result.value, later).valid <==> later <= now + TokenDuration
  {
  }

  /** A sweep agrees with validation: a token survives the sweep at `now`
      exactly when validating it at `now` succeeds, and validating after the
      sweep gives the same answer as without it. */
  lemma SweepAgreesWithValidation(tokens: Store, token: string, now: int)
    ensures token in Live(tokens, now) <==> ValidateToken(tokens, token, now).valid
    ensures ValidateToken(Live(tokens, now), token, now).valid == ValidateToken(tokens, token, now).valid
  {
  }

  /** Sweeping at `a` and then at a later `b` is the same as sweeping once
      at `b`; in particular a second sweep at the same time removes nothing. */
  lemma SweepsCompose(tokens: Store, a: int, b: int)
    requires a <= b
    ensures Live(Live(tokens, a), b) == Live(tokens, b)
  {
  }
}

=== FILE: totp.dfy ===
/** Two-factor provisioning in the config editor (web/admin/app.js): a new
    shared secret of 16 Base32 characters (the alphabet of section 6 of
    RFC 4648), the `otpauth://` URI that encodes it, the image URL handed to
    the external QR-code service, and the "enable 2FA" toggle.

    `Math.random()` is replaced by its 16 draws `Math.floor(Math.random() * 32)`,
    given as a sequence of indices below 32. */
module Totp {
  import opened Wrappers
  import opened Uri

  const Base32Alphabet: string := "ABCDEFGHIJKLMNOPQRSTUVWXYZ234567"
  const SecretLength: nat := 16

  /** The issuer and account label of the provisioning URI. */
  const Issuer: string := "LemwoodMirror"
  const UriPrefix: string := "otpauth://totp/" + Issuer + ":admin?secret="
  const UriSuffix: string := "&issuer=" + Issuer
  const QrService: string := "https://api.qrserver.com/v1/create-qr-code/?size=150x150&data="

  /** The Base32 symbols: `A`-`Z` and `2`-`7`. */
  predicate IsBase32(c: char) {
    ('A' <= c <= 'Z') || ('2' <= c <= '7')
  }

  /** The symbol with index `i`, computed from the ranges rather than read
      from the alphabet string. */
  function Base32Symbol(i: nat): (c: char)
    requires i < 32
    ensures IsBase32(c)
  {
    if i < 26 then ('A' as int + i) as char else ('2' as int + i - 26) as char
  }

  /** The position of a symbol in the alphabet. */
  function Base32Index(c: char): (i: nat)
    requires IsBase32(c)
    ensures i < 32 && Base32Symbol(i) == c
  {
    if 'A' <= c <= 'Z' then c as int - 'A' as int else c as int - '2' as int + 26
  }

  /** The alphabet string of the source lists exactly the symbols, in index
      order. */
  lemma AlphabetIsBase32()
    ensures |Base32Alphabet| == 32
    ensures forall i :: 0 <= i < 32 ==> Base32Alphabet[i] == Base32Symbol(i)
  {
    assert Base32Alphabet == seq(32, i requires 0 <= i < 32 => Base32Symbol(i));
  }

  /** A valid outcome of the 16 random draws. */
  predicate ValidDraws(draws: seq<nat>) {
    |draws| == SecretLength && forall i :: 0 <= i < |draws| ==> draws[i] < |Base32Alphabet|
  }

  /** The secret a sequence of draws spells, symbol by symbol. */
  function SecretOf(draws: seq<nat>): (s: string)
    requires ValidDraws(draws)
  {
    seq(SecretLength, k requires 0 <= k < SecretLength => Base32Symbol(draws[k]))
  }

  /** The draws that spell a given secret. */
  function DrawsOf(secret: string): (draws: seq<nat>)
    requires |secret| == SecretLength && forall k :: 0 <= k < |secret| ==> IsBase32(secret[k])
    ensures ValidDraws(draws)
  {
    seq(SecretLength, k requires 0 <= k < SecretLength => Base32Index(secret[k]))
  }

  /** Secrets and draws correspond one to one, so uniform draws give every
      16-symbol Base32 secret the same chance. */
  lemma SecretsMatchDraws(draws: seq<nat>, secret: string)
    requires ValidDraws(draws)
    requires |secret| == SecretLength && forall k :: 0 <= k < |secret| ==> IsBase32(secret[k])
    ensures DrawsOf(SecretOf(draws)) == draws
    ensures SecretOf(DrawsOf(secret)) == secret
  {
    var s := SecretOf(draws);
    assert forall k :: 0 <= k < SecretLength ==> Base32Index(s[k]) == draws[k];
  }

  /** `generateNewSecret`: sixteen times, append the alphabet character the
      next draw picks. */
  method GenerateNewSecret(draws: seq<nat>) returns (secret: string)
    requires ValidDraws(draws)
    ensures |secret| == SecretLength
    ensures forall k :: 0 <= k < |secret| ==> IsBase32(secret[k])
    ensures secret == SecretOf(draws)
  {
    AlphabetIsBase32();
    secret := "";
    var i := 0;
    while i < SecretLength
      invariant 0 <= i <= SecretLength
      invariant |secret| == i
      invariant forall k :: 0 <= k < i ==> secret[k] == Base32Symbol(draws[k])
    {
      secret := secret + [Base32Alphabet[draws[i]]];
      i := i + 1;
    }
  }

  /** The `otpauth://` URI the QR code encodes. */
  function OtpauthUri(secret: string): (uri: string)
    ensures UriPrefix <= uri
    ensures |uri| == |UriPrefix| + |secret| + |UriSuffix|
  {
    UriPrefix + secret + UriSuffix
  }

  /** Reads the secret back out of such a URI. */
  function SecretInUri(uri: string): Option<string>
  {
    if |uri| >= |UriPrefix| + |UriSuffix| && UriPrefix <= uri && uri[|uri| - |UriSuffix|..] == UriSuffix
    then Some(uri[|UriPrefix|..|uri| - |UriSuffix|])
    else None
  }

  /** The URI carries exactly the secret it was built from. */
  lemma SecretInUriRoundTrip(secret: string)
    ensures SecretInUri(OtpauthUri(secret)) == Some(secret)
  {
    var uri := OtpauthUri(secret);
    assert uri[|uri| - |UriSuffix|..] == UriSuffix;
    assert uri[|UriPrefix|..|uri| - |UriSuffix|] == secret;
  }

  /** `updateTOTPQR(secret)`: the image source handed to the QR service. */
  function QrImageUrl(secret: string): (url: string)
    ensures QrService <= url
  {
    QrService + EncodeUriComponent(OtpauthUri(secret))
  }

  /** A Base32 secret appears verbatim in the QR request URL, between the
      encoded URI prefix and suffix. */
  lemma QrUrlContainsSecret(secret: string)
    requires forall k :: 0 <= k < |secret| ==> IsBase32(secret[k])
    ensures QrImageUrl(secret) ==
            QrService + EncodeUriComponent(UriPrefix) + secret + EncodeUriComponent(UriSuffix)
  {
    EncodeInfix(UriPrefix, secret, UriSuffix);
  }

  /** The 2FA part of the config form. */
  datatype TwoFactorForm = TwoFactorForm(enabled: bool, secret: string, setupVisible: bool,
                                         qrUrl: Option<string>)

  /** The "generate" button always replaces the secret and its QR code. */
  method GenerateClicked(form: TwoFactorForm, draws: seq<nat>) returns (r: TwoFactorForm)
    requires ValidDraws(draws)
    ensures |r.secret| == SecretLength && forall k :: 0 <= k < |r.secret| ==> IsBase32(r.secret[k])
    ensures r.secret == SecretOf(draws)
    ensures r.qrUrl == Some(QrImageUrl(r.secret))
    ensures r.enabled == form.enabled && r.setupVisible == form.setupVisible
  {
    var secret := GenerateNewSecret(draws);
    r := form.(secret := secret, qrUrl := Some(QrImageUrl(secret)));
  }

  /** Toggling "enable 2FA": the setup section follows the box; switching
      it on with an empty secret generates one (with its QR code), while a
      secret already present is kept as it is. */
  method ToggleTwoFactor(form: TwoFactorForm, checked: bool, draws: seq<nat>) returns (r: TwoFactorForm)
    requires ValidDraws(draws)
    ensures r.enabled == checked && r.setupVisible == checked
    ensures checked && form.secret == "" ==>
              |r.secret| == SecretLength && (forall k :: 0 <= k < |r.secret| ==> IsBase32(r.secret[k]))
              && r.qrUrl == Some(QrImageUrl(r.secret))
    ensures checked && form.secret == "" ==> r.secret == SecretOf(draws)
    ensures !(checked && form.secret == "") ==> r.secret == form.secret && r.qrUrl == form.qrUrl
  {
    r := form.(enabled := checked, setupVisible := checked);
    if checked && form.secret == "" {
      r := GenerateClicked(r, draws);
    }
  }
}

=== FILE: uri.dfy ===
/** `encodeURIComponent`, which the console applies to every path and IP it
    puts into a query string, and its inverse on one already separated
    query value: percent-decoding. */
module Uri {
  import opened Wrappers

  /** The characters `encodeURIComponent` leaves as they are: ASCII letters,
      digits and `- _ . ! ~ * ' ( )`. */
  predicate IsUnreserved(c: char) {
    || ('A' <= c <= 'Z') || ('a' <= c <= 'z') || ('0' <= c <= '9')
    || c == '-' || c == '_' || c == '.' || c == '!' || c == '~'
    || c == '*' || c == '\'' || c == '(' || c == ')'
  }

  predicate IsUpperHex(c: char) {
    ('0' <= c <= '9') || ('A' <= c <= 'F')
  }

  /** A character that can appear in the output of `encodeURIComponent`. */
  predicate IsEncodedChar(c: char) {
    IsUnreserved(c) || c == '%'
  }

  function HexUpper(d: nat): (c: char)
    requires d < 16
    ensures IsUpperHex(c)
  {
    if d < 10 then ('0' as int + d) as char else ('A' as int + d - 10) as char
  }

  lemma HexValueUpper(d: nat)
    requires d < 16
    ensures HexValue(HexUpper(d)) == Some(d)
  {
  }

  /** The UTF-8 bytes of one Unicode scalar value. */
  function Utf8(c: char): (bs: seq<nat>)
    ensures 1 <= |bs| <= 4
    ensures forall i :: 0 <= i < |bs| ==> bs[i] < 256
  {
    var cp := c as int;
    if cp < 0x80 then [cp]
    else if cp < 0x800 then [0xC0 + cp / 64, 0x80 + cp % 64]
    else if cp < 0x10000 then [0xE0 + cp / 4096, 0x80 + (cp / 64) % 64, 0x80 + cp % 64]
    else [0xF0 + cp / 262144, 0x80 + (cp / 4096) % 64, 0x80 + (cp / 64) % 64, 0x80 + cp % 64]
  }

  /** `%XY` with upper-case hex digits for each byte. */
  function PercentBytes(bs: seq<nat>): (r: string)
    requires forall i :: 0 <= i < |bs| ==> bs[i] < 256
    ensures |r| == 3 * |bs|
    ensures forall i :: 0 <= i < |r| ==> IsEncodedChar(r[i])
  {
    if |bs| == 0 then ""
    else ['%', HexUpper(bs[0] / 16), HexUpper(bs[0] % 16)] + PercentBytes(bs[1..])
  }

  function EncodeChar(c: char): (r: string)
    ensures 1 <= |r| && forall i :: 0 <= i < |r| ==> IsEncodedChar(r[i])
  {
    if IsUnreserved(c) then [c] else PercentBytes(Utf8(c))
  }

  /** `encodeURIComponent(s)`: unreserved characters verbatim, every other
      character as the percent-escaped bytes of its UTF-8 encoding. */
  function EncodeUriComponent(s: string): (r: string)
    ensures |r| >= |s|
    ensures forall i :: 0 <= i < |r| ==> IsEncodedChar(r[i])
  {
    if |s| == 0 then "" else EncodeChar(s[0]) + EncodeUriComponent(s[1..])
  }

  /** Encoded text holds none of the characters that end or split a query
      value (`&`, `#`, `=`) or that a form decoder reads as a space (`+`). */
  lemma EncodedHasNoDelimiters(r: string)
    requires forall i :: 0 <= i < |r| ==> IsEncodedChar(r[i])
    ensures '&' !in r && '#' !in r && '+' !in r && '=' !in r
  {
  }

  /** Encoding distributes over concatenation. */
  lemma {:induction false} EncodeConcat(a: string, b: string)
    ensures EncodeUriComponent(a + b) == EncodeUriComponent(a) + EncodeUriComponent(b)
  {
    if |a| > 0 {
      assert (a + b)[1..] == a[1..] + b;
      EncodeConcat(a[1..], b);
    } else {
      assert a + b == b;
    }
  }

  /** A string of unreserved characters encodes to itself. */
  lemma {:induction false} EncodeUnreserved(s: string)
    requires forall i :: 0 <= i < |s| ==> IsUnreserved(s[i])
    ensures EncodeUriComponent(s) == s
  {
    if |s| > 0 {
      EncodeUnreserved(s[1..]);
    }
  }

  /** Unreserved text between two strings survives encoding verbatim. */
  lemma EncodeInfix(a: string, s: string, b: string)
    requires forall i :: 0 <= i < |s| ==> IsUnreserved(s[i])
    ensures EncodeUriComponent(a + s + b) == EncodeUriComponent(a) + s + EncodeUriComponent(b)
  {
    EncodeConcat(a + s, b);
    EncodeConcat(a, s);
    EncodeUnreserved(s);
  }

  // ---------------------------------------------------------------------
  // Percent-decoding

  function HexValue(c: char): Option<nat>
  {
    if '0' <= c <= '9' then Some(c as int - '0' as int)
    else if 'A' <= c <= 'F' then Some(c as int - 'A' as int + 10)
    else if 'a' <= c <= 'f' then Some(c as int - 'a' as int + 10)
    else None
  }

  /** The byte written as `%XY` at the front of `s`, if any. */
  function ReadByte(s: string): (r: Option<nat>)
    ensures r.Some? ==> |s| >= 3 && r.value < 256
  {
    if |s| < 3 || s[0] != '%' then None
    else match (HexValue(s[1]), HexValue(s[2]))
      case (Some(h), Some(l)) => if h < 16 && l < 16 then Some(h * 16 + l) else None
      case _ => None
  }

  /** `n` consecutive `%XY` bytes at the front of `s`. */
  function ReadBytes(s: string, n: nat): (r: Option<seq<nat>>)
    ensures r.Some? ==> |s| >= 3 * n && |r.value| == n
  {
    if n == 0 then Some([])
    else match ReadByte(s)
      case None => None
      case Some(b) =>
        match ReadBytes(s[3..], n - 1)
        case None => None
        case Some(bs) => Some([b] + bs)
  }

  /** Length of the UTF-8 sequence a lead byte announces; 0 if it is not a
      lead byte. */
  function Utf8Length(b: nat): nat
  {
    if b < 0x80 then 1
    else if 0xC0 <= b < 0xE0 then 2
    else if 0xE0 <= b < 0xF0 then 3
    else if 0xF0 <= b < 0xF8 then 4
    else 0
  }

  predicate IsContinuation(b: nat) {
    0x80 <= b < 0xC0
  }

  /** The scalar value a UTF-8 sequence stands for, when it stands for one. */
  function Utf8Decode(bs: seq<nat>): Option<char>
  {
    if |bs| == 1 && bs[0] < 0x80 then Some(bs[0] as char)
    else if |bs| == 2 && 0xC0 <= bs[0] < 0xE0 && IsContinuation(bs[1]) then
      Some(((bs[0] - 0xC0) * 64 + (bs[1] - 0x80)) as char)
    else if |bs| == 3 && 0xE0 <= bs[0] < 0xF0 && IsContinuation(bs[1]) && IsContinuation(bs[2]) then
      var cp := (bs[0] - 0xE0) * 4096 + (bs[1] - 0x80) * 64 + (bs[2] - 0x80);
      if 0xD800 <= cp < 0xE000 then None else Some(cp as char)
    else if |bs| == 4 && 0xF0 <= bs[0] < 0xF8 && IsContinuation(bs[1]) && IsContinuation(bs[2])
            && IsContinuation(bs[3]) then
      var cp := (bs[0] - 0xF0) * 262144 + (bs[1] - 0x80) * 4096 + (bs[2] - 0x80) * 64 + (bs[3] - 0x80);
      if 0x10000 <= cp < 0x110000 then Some(cp as char) else None
    else None
  }

  /** Percent-decoding of one query value, already cut out of the query
      string: `%XY` sequences are read as UTF-8, every other character
      (`+` included) stands for itself. `None` for a malformed escape. */
  function Decode(s: string): Option<string>
    decreases |s|
  {
    if |s| == 0 then Some("")
    else if s[0] != '%' then
      match Decode(s[1..])
      case None => None
      case Some(t) => Some([s[0]] + t)
    else
      match ReadByte(s)
      case None => None
      case Some(b0) =>
        var n := Utf8Length(b0);
        if n == 0 then None
        else match ReadBytes(s, n)
          case None => None
          case Some(bs) =>
            match Utf8Decode(bs)
            case None => None
            case Some(c) =>
              match Decode(s[3 * n..])
              case None => None
              case Some(t) => Some([c] + t)
  }

  lemma {:induction false} ReadPercentBytes(bs: seq<nat>, rest: string)
    requires forall i :: 0 <= i < |bs| ==> bs[i] < 256
    ensures ReadBytes(PercentBytes(bs) + rest, |bs|) == Some(bs)
  {
    if |bs| > 0 {
      var s := PercentBytes(bs) + rest;
      assert s[3..] == PercentBytes(bs[1..]) + rest;
      assert s[1] == HexUpper(bs[0] / 16) && s[2] == HexUpper(bs[0] % 16);
      HexValueUpper(bs[0] / 16);
      HexValueUpper(bs[0] % 16);
      assert ReadByte(s) == Some(bs[0]);
      ReadPercentBytes(bs[1..], rest);
      assert [bs[0]] + bs[1..] == bs;
    }
  }

  lemma Utf8RoundTrip2(cp: int)
    requires 0x80 <= cp < 0x800
    ensures var bs := [0xC0 + cp / 64, 0x80 + cp % 64];
            0xC0 <= bs[0] < 0xE0 && IsContinuation(bs[1])
            && (bs[0] - 0xC0) * 64 + (bs[1] - 0x80) == cp
  {
  }

  lemma Utf8RoundTrip3(cp: int)
    requires 0x800 <= cp < 0x10000
    ensures var bs := [0xE0 + cp / 4096, 0x80 + (cp / 64) % 64, 0x80 + cp % 64];
            0xE0 <= bs[0] < 0xF0 && IsContinuation(bs[1]) && IsContinuation(bs[2])
            && (bs[0] - 0xE0) * 4096 + (bs[1] - 0x80) * 64 + (bs[2] - 0x80) == cp
  {
    var q := cp / 64;
    assert cp == q * 64 + cp % 64;
    assert q == (q / 64) * 64 + q % 64;
    assert q / 64 == cp / 4096;
  }

  lemma Utf8RoundTrip4(cp: int)
    requires 0x10000 <= cp < 0x110000
    ensures var bs := [0xF0 + cp / 262144, 0x80 + (cp / 4096) % 64, 0x80 + (cp / 64) % 64, 0x80 + cp % 64];
            0xF0 <= bs[0] < 0xF8 && IsContinuation(bs[1]) && IsContinuation(bs[2]) && IsContinuation(bs[3])
            && (bs[0] - 0xF0) * 262144 + (bs[1] - 0x80) * 4096 + (bs[2] - 0x80) * 64 + (bs[3] - 0x80) == cp
  {
    var q := cp / 64;
    var q2 := q / 64;
    assert cp == q * 64 + cp % 64;
    assert q == q2 * 64 + q % 64;
    assert q2 == (q2 / 64) * 64 + q2 % 64;
    assert q2 == cp / 4096;
    assert q2 / 64 == cp / 262144;
  }

  lemma Utf8RoundTrip(c: char)
    ensures Utf8Length(Utf8(c)[0]) == |Utf8(c)|
    ensures Utf8Decode(Utf8(c)) == Some(c)
  {
    var cp := c as int;
    if cp < 0x80 {
    } else if cp < 0x800 {
      Utf8RoundTrip2(cp);
    } else if cp < 0x10000 {
      Utf8RoundTrip3(cp);
      assert !(0xD800 <= cp < 0xE000);
    } else {
      Utf8RoundTrip4(cp);
    }
  }

  lemma DecodeEncodeChar(c: char, rest: string)
    ensures Decode(EncodeChar(c) + rest) ==
            (match Decode(rest) case None => None case Some(t) => Some([c] + t))
  {
    var s := EncodeChar(c) + rest;
    if IsUnreserved(c) {
      assert s[1..] == rest;
    } else {
      var bs := Utf8(c);
      Utf8RoundTrip(c);
      ReadPercentBytes(bs, rest);
      ReadPercentBytes([bs[0]], PercentBytes(bs[1..]) + rest);
      assert PercentBytes(bs) == PercentBytes([bs[0]]) + PercentBytes(bs[1..]);
      assert s[3 * |bs|..] == rest;
    }
  }

  /** Percent-decoding the encoded value gives back exactly the text the
      console encoded. */
  lemma {:induction false} DecodeEncode(s: string)
    ensures Decode(EncodeUriComponent(s)) == Some(s)
  {
    if |s| > 0 {
      DecodeEncode(s[1..]);
      DecodeEncodeChar(s[0], EncodeUriComponent(s[1..]));
      assert [s[0]] + s[1..] == s;
    }
  }
}

=== FILE: wrappers.dfy ===
/** Failure-carrying wrapper types shared by every component of the model. */
module Wrappers {

  /** A value that may be absent: `localStorage.getItem` returning `null`,
      an optional JSON field, an optional request body. */
  datatype Option<+T> = None | Some(value: T)

  /** The value held by `o`, or `fallback` when there is none: the
      `field || fallback` idiom for a field that may be missing. */
  function ValueOr<T>(o: Option<T>, fallback: T): T
  {
    if o.Some? then o.value else fallback
  }

  /** Either a value or an error, as a Go `(value, error)` pair. */
  datatype Result<+R, +E> = Success(value: R) | Failure(error: E)
}
